=== FILE: README.md ===
# SMSSecure message handling core, modelled in Dafny

This project models the decision logic at the centre of the SMSSecure
Android messenger and proves properties of it. It covers five parts:

- **`BitmapUtil`** shrinks and rotates images before they are sent:
  - the power-of-two sub-sampling factor;
  - the JPEG quality search that fits a size budget;
  - the NV21 camera-frame rotation into a fresh buffer;
  - the frame size handed to the JPEG encoder.
- **`ConversationItem`** shows one message in a conversation:
  - which delivery indicator is visible and what the status line says;
  - when the item is clickable and what a click does;
  - how approving or declining an unencrypted SMS fallback rewrites the stored message and queues a send job.
- **`MessageNotifier`** builds the message notification:
  - the LED blink pattern;
  - the sound, vibration and lights;
  - which unread messages are listed and with which text;
  - the reminder alarms;
  - what each `updateNotification` entry point does.
- **`PushTransport`** hands messages to the push server:
  - the message type tag chosen from the recipient's session;
  - the attachments taken from a multimedia message;
  - the reporting of a rate-limit answer.
- **`SMSSecurePreferences`** holds the settings in the shared-preferences store:
  - typed get and set with defaults;
  - the repeat-alert count parsed from text;
  - the registration id tied to a release;
  - the custom-MMSC switches that inherit the legacy manual-MMS switch;
  - the push fallback switches, which are fixed.

Each core file has its own module: `BitmapUtil` (with the NV21 index
algebra in `Nv21`), `ConversationItem`, `MessageNotifier`, `PushTransport`
and `SMSSecurePreferences`. The Java semantics the code relies on live in
`JavaLang`:

- 32-bit wrap-around;
- division and remainder that truncate toward zero;
- `Integer.parseInt`, `String.valueOf(int)` and `String.split(",")`.

Exceptions are the `Err` side of a `Result`.

Parts of the source that update state in place are classes:

- the status indicators;
- the item view;
- the message tables;
- the notifier's static state together with the notifications it posts, keyed by notification id;
- the preference store;
- the push outbox.

Their methods carry `modifies` clauses and state the whole new state. The
NV21 rotation writes into a fresh `array` in nested loops, as the source
does. Pure decisions are functions, and lemmas relate them to independent
characterisations.

Some things come from outside the modelled code and enter as parameters:

- the Android codecs (`compress`, JPEG encoding);
- `Color.parseColor`;
- the ciphers;
- the push server's answers;
- the disk-commit outcome of a blocking preference write;
- the running release's version;
- the localised "media message" text.

## Model

| member | source | states |
|---|---|---|
| `BitmapUtil.GetScaleFactor` | src/org/smssecure/smssecure/util/BitmapUtil.java:191-203 | The result is a power of two within `int`. Unconstrained, it is the largest factor whose halving would put a side below its maximum, and every factor above 1 keeps both sides at or above their maxima. Constrained, both sides fit and no smaller power of two fits. |
| `BitmapUtil.NextQuality` | src/org/smssecure/smssecure/util/BitmapUtil.java:66 | The next quality, computed in 32-bit arithmetic, is never below the minimum 50. |
| `BitmapUtil.NextQualityLowers` | src/org/smssecure/smssecure/util/BitmapUtil.java:66-67 | After an output that was too large, the next quality stays in [50, quality] and drops strictly unless it is already the minimum, even when `quality * maxSize` overflows. |
| `BitmapUtil.CreateScaledBytes` | src/org/smssecure/smssecure/util/BitmapUtil.java:56-74 | At most five compressions, starting at 95. Each retry follows an oversized output, at the scaled-down quality. Qualities stay in [50, 95] and never rise. The result is the last output when it fits; otherwise an `IOException` naming its size after exactly five tries, or an `ArithmeticException` on an empty output. |
| `BitmapUtil.RotationGuard` | src/org/smssecure/smssecure/util/BitmapUtil.java:300-302 | For a non-zero angle, the guard rejects exactly the angles other than 90, 180 and 270. |
| `BitmapUtil.RotateNV21` | src/org/smssecure/smssecure/util/BitmapUtil.java:295-334 | Rotation 0 returns the input array itself. A bad angle is an `IllegalArgumentException`. Otherwise the result is a fresh array of the same length. For an NV21 frame, every luma byte and chroma pair is at its rotated position and no exception occurs. Otherwise the only possible failure is an index out of bounds. |
| `BitmapUtil.RotatePixel` | src/org/smssecure/smssecure/util/BitmapUtil.java:311-329 | One inner-loop step. Inside a frame it copies exactly the pixel's luma byte and chroma pair. An index out of range writes nothing and reports it. |
| `BitmapUtil.RotatedDimensions` | src/org/smssecure/smssecure/util/BitmapUtil.java:283-284 | The announced size is the input size, or the same size with width and height swapped. |
| `BitmapUtil.RotatedDimensionsAgree` | src/org/smssecure/smssecure/util/BitmapUtil.java:281-285 | The `rotation % 180 > 0` test yields the rotated frame's own width and height, and the buffer is still a frame of that size. |
| `BitmapUtil.CreateFromNV21` | src/org/smssecure/smssecure/util/BitmapUtil.java:275-293 | A bad angle propagates. Rotation 0 encodes the data unchanged. A quarter turn of a frame encodes a buffer holding every pixel at its rotated place, at the rotated size. |
| `Nv21.RotationFlags` | src/org/smssecure/smssecure/util/BitmapUtil.java:305-308 | The swap and flip flags for 90, 180 and 270 degrees. |
| `Nv21.IndicesInRange` | src/org/smssecure/smssecure/util/BitmapUtil.java:312-328 | Inside a frame, every luma index read or written lies in the luma plane and every chroma pair lies in the chroma plane. |
| `Nv21.LumaInjective` | src/org/smssecure/smssecure/util/BitmapUtil.java:324 | Two different pixels never write the same luma byte. |
| `Nv21.ChromaConsistent` | src/org/smssecure/smssecure/util/BitmapUtil.java:313-327 | Pixels that write the same chroma pair read the same chroma pair, so the loop's repeated chroma writes agree. |
| `Nv21.ChromaParity` | src/org/smssecure/smssecure/util/BitmapUtil.java:326-327 | A pixel's U byte never coincides with another pixel's V byte. |
| `Nv21.SourceIsInverse` | src/org/smssecure/smssecure/util/BitmapUtil.java:317-322 | Every output coordinate comes from an input pixel of the grid. |
| `Nv21.LumaBijective` | src/org/smssecure/smssecure/util/BitmapUtil.java:321-324 | The luma writes are a bijection between the pixels and the luma plane. |
| `Nv21.LumaSource` | src/org/smssecure/smssecure/util/BitmapUtil.java:324 | Every luma byte of the output has a pixel that writes it. |
| `Nv21.ChromaSource` | src/org/smssecure/smssecure/util/BitmapUtil.java:325-327 | Every chroma byte of the output is written by some pixel. |
| `Nv21.PlacedDetermines` | src/org/smssecure/smssecure/util/BitmapUtil.java:310-331 | Two buffers that both hold every pixel at its rotated place are equal, so the rotated frame is fully determined. |
| `Nv21.CopyAdvances` | src/org/smssecure/smssecure/util/BitmapUtil.java:311-330 | One loop step keeps every earlier pixel in place and places the current one. |
| `Nv21.AllRowsDone` | src/org/smssecure/smssecure/util/BitmapUtil.java:310-331 | When the loops end, every pixel has been placed. |
| `ConversationItem.StatusManager.constructor` | src/org/smssecure/smssecure/ConversationItem.java:610-619 | The manager starts with the given visibilities. |
| `ConversationItem.StatusManager.DisplayFailed` | src/org/smssecure/smssecure/ConversationItem.java:621-628 | Afterwards only the failed indicator is visible. |
| `ConversationItem.StatusManager.DisplayPendingApproval` | src/org/smssecure/smssecure/ConversationItem.java:630-637 | Afterwards only the approval indicator is visible. |
| `ConversationItem.StatusManager.DisplayPending` | src/org/smssecure/smssecure/ConversationItem.java:639-646 | Afterwards only the pending indicator is visible. |
| `ConversationItem.StatusManager.DisplaySent` | src/org/smssecure/smssecure/ConversationItem.java:648-655 | Afterwards only the sent indicator is visible. |
| `ConversationItem.StatusManager.DisplayDelivered` | src/org/smssecure/smssecure/ConversationItem.java:657-664 | Afterwards only the delivered indicator is visible. |
| `ConversationItem.StatusFor` | src/org/smssecure/smssecure/ConversationItem.java:302-306 | The chosen indicator's condition holds of the message; "sent" is the fallback. |
| `ConversationItem.StatusIsHighestApplicable` | src/org/smssecure/smssecure/ConversationItem.java:302-306 | The chosen indicator is the unique applicable one of highest priority: failed, then approval, then pending, then delivered, then sent. |
| `ConversationItem.MediaThumbnail` | src/org/smssecure/smssecure/ConversationItem.java:264-280 | The thumbnail is shown exactly for a downloaded MMS with parts. Its progress shows exactly when the message has not failed and is incoming or pending. |
| `ConversationItem.BodyVisible` | src/org/smssecure/smssecure/ConversationItem.java:247-257 | The body is hidden exactly for an MMS with an empty display body. |
| `ConversationItem.SmsShowsOnlyText` | src/org/smssecure/smssecure/ConversationItem.java:237-245 | An SMS always shows its body and never a thumbnail. |
| `ConversationItem.NothingShownMeansEmptyMms` | src/org/smssecure/smssecure/ConversationItem.java:237-280 | An item with neither body nor thumbnail is an MMS that is a notification or has no parts. |
| `ConversationItem.DisplayedTimestamp` | src/org/smssecure/smssecure/ConversationItem.java:296-298 | The sent time when the preference asks for it, else the received time. |
| `ConversationItem.ItemView.SetStatusIcons` | src/org/smssecure/smssecure/ConversationItem.java:288-307 | The download widgets are hidden. The secure and key-exchange icons follow the message. Exactly the indicator `StatusFor` picks is visible. A failed message shows the error date and "click for details". An insecure fallback shows the approval text, or an empty text for a secure one. Clickability, body and thumbnail are untouched. |
| `ConversationItem.ItemView.SetFailedStatusIcons` | src/org/smssecure/smssecure/ConversationItem.java:309-316 | Only the failed indicator is visible, the date reads as an error and the indicator text asks for a click for details. Nothing else in the view changes. |
| `ConversationItem.ItemView.SetFallbackStatusIcons` | src/org/smssecure/smssecure/ConversationItem.java:318-328 | Only the approval indicator is visible, and its text is empty for a secure fallback and asks to approve the unencrypted send otherwise. Nothing else in the view changes. |
| `ConversationItem.ItemView.SetEvents` | src/org/smssecure/smssecure/ConversationItem.java:339-357 | Clickability becomes `Clickable`. A failed message gains the selection long-click. The status line, both icons, body, thumbnail, listener and download widgets are untouched. |
| `ConversationItem.ItemView.SetBodyText` | src/org/smssecure/smssecure/ConversationItem.java:247-262 | The body is visible exactly when `BodyVisible` says so. The thumbnail, clickability, long-click, listener, download widgets, status line, indicator and both icons are unchanged. |
| `ConversationItem.ItemView.SetMediaAttributes` | src/org/smssecure/smssecure/ConversationItem.java:264-280 | The thumbnail becomes `MediaThumbnail` of the message. An MMS notification also gets `NoticeShown`: size and expiry as the date, the download widgets of its status, and possibly a new click listener. Any other message leaves the date, the download widgets, clickability and the listener as they were. Either way the body, long-click, indicator and both icons are unchanged. |
| `ConversationItem.ItemView.SetNotificationMmsAttributes` | src/org/smssecure/smssecure/ConversationItem.java:368-391 | The date line becomes the size and the expiry. The download button shows exactly when the status asks for it, otherwise the status label. An incoming notice whose download failed hard or found no APN sends clicks to the download or preferences listener and becomes clickable; otherwise listener and clickability are kept. Icons, indicator, body and thumbnail are untouched. |
| `ConversationItem.NoticeClickHandler` | src/org/smssecure/smssecure/ConversationItem.java:378-389 | A listener is installed only for an incoming notice without a download button: the download listener exactly after a hard error, the preferences listener exactly when the APN is unavailable and the error is not hard. |
| `ConversationItem.ItemView.Set` | src/org/smssecure/smssecure/ConversationItem.java:164-190 | The body text is always set. With a conversation bubble, the indicator, the long-click and the thumbnail follow the message. The secure icon shows exactly for a secure message and the key-exchange icon for a key exchange. The indicator text is visible exactly for a failed or approval status, with the failed and approval texts of `SetStatusIcons`. For a message that is not an MMS notification, the date, clickability (`Clickable`) and hidden download widgets follow too. For an MMS notification, the notice's date, download widgets and listener win, and it is clickable when `Clickable` holds or a listener was installed. A group action (no bubble) leaves indicators, status line, both icons, clickability, listener, download widgets and thumbnail exactly as they were. |
| `ConversationItem.Clickable` | src/org/smssecure/smssecure/ConversationItem.java:340-344 | Clickable whenever nothing is selected and a fallback is pending, and whenever it is an incoming uncorrupted key exchange; clickable in no other case. |
| `ConversationItem.KeyExchangeClickableDuringSelection` | src/org/smssecure/smssecure/ConversationItem.java:340-344 | With Java's precedence an incoming uncorrupted key exchange stays clickable while a selection is active, whereas `OuterSelectionClickable`, the reading with the selection test outermost, would make it unclickable. |
| `ConversationItem.OnClick` | src/org/smssecure/smssecure/ConversationItem.java:501-521 | Each action, `HandleApproval` and `NoAction` included, is chosen exactly when its branch is the first that matches, in source order. Details carry the message's transport. |
| `ConversationItem.ClickableFallbackReacts` | src/org/smssecure/smssecure/ConversationItem.java:340-519 | An item clickable for its pending fallback always reacts to a click. It asks for approval exactly when it is neither failed nor an unprocessed key exchange. |
| `ConversationItem.PlainMessageIgnoresClick` | src/org/smssecure/smssecure/ConversationItem.java:502-520 | A message that is not failed, not a key exchange and not a pending fallback is not clickable, and a click does nothing. |
| `ConversationItem.ApprovalDialogFor` | src/org/smssecure/smssecure/ConversationItem.java:536-555 | A secure fallback gets an untitled dialog without a message. Otherwise the title names the transport and the message explains the unencrypted send. |
| `ConversationItem.UpdateRow` | src/org/smssecure/smssecure/ConversationItem.java:563-593 | A database update rewrites only the message's own row, and no row when it is missing. |
| `ConversationItem.Approved` | src/org/smssecure/smssecure/ConversationItem.java:562-577 | An approved row is in the outbox and forced to SMS. It is insecure exactly when it already was or the fallback was insecure. |
| `ConversationItem.ApproveIdempotent` | src/org/smssecure/smssecure/ConversationItem.java:557-584 | Approving twice is the same as approving once. |
| `ConversationItem.ApproveMarksInsecureOnlyForInsecureFallback` | src/org/smssecure/smssecure/ConversationItem.java:557-596 | Approval marks insecure exactly for an insecure fallback. Declining keeps both marks. |
| `ConversationItem.MessageStore.Approve` | src/org/smssecure/smssecure/ConversationItem.java:557-585 | The message's own table gets the approved row and the other table is unchanged. One MMS or SMS send job is queued. |
| `ConversationItem.MessageStore.Decline` | src/org/smssecure/smssecure/ConversationItem.java:587-596 | The message's own row is marked sent-failed. The other table and the job queue are unchanged. |
| `MessageNotifier.ParseBlinkPattern` | src/org/smssecure/smssecure/notifications/MessageNotifier.java:459-464 | The custom pattern is split when "custom" is selected, otherwise the pattern itself. |
| `MessageNotifier.BlinkPatternRoundTrip` | src/org/smssecure/smssecure/notifications/MessageNotifier.java:459-464 | An "on,off" pattern, direct or custom, splits back into exactly the two numbers' text. |
| `MessageNotifier.AlarmsFor` | src/org/smssecure/smssecure/notifications/MessageNotifier.java:430-457 | Sound only when signalling: the recipients' ringtone, else a non-empty default. Vibration exactly when signalling and enabled, or left to a default that is on. Lights exactly unless the colour is "none". The only failures are a rejected colour, a missing piece or an unparsable number, and only with lights on. |
| `MessageNotifier.PatternDrivesLights` | src/org/smssecure/smssecure/notifications/MessageNotifier.java:452-456 | A well-formed "on,off" pattern blinks the LED for exactly those times in the parsed colour. |
| `MessageNotifier.SinglePieceFails` | src/org/smssecure/smssecure/notifications/MessageNotifier.java:452-456 | A pattern without a comma fails on the missing second piece with an index-out-of-bounds exception. |
| `MessageNotifier.ClassifyBody` | src/org/smssecure/smssecure/notifications/MessageNotifier.java:411-419 | An encrypted placeholder exactly when decryption is pending or the body is not plaintext. A media placeholder exactly for a plaintext MMS with an empty body. A downloaded MMS gets the prefix in italics followed by the body. Otherwise the body as is. |
| `MessageNotifier.ItemFor` | src/org/smssecure/smssecure/notifications/MessageNotifier.java:396-422 | The item carries the record's sender and thread, and the sent or received time by the preference. |
| `MessageNotifier.NotificationsOf` | src/org/smssecure/smssecure/notifications/MessageNotifier.java:395-424 | There are never more items than records. |
| `MessageNotifier.NotificationsFromKept` | src/org/smssecure/smssecure/notifications/MessageNotifier.java:407-423 | Every item is the item of some record whose thread is not muted. |
| `MessageNotifier.KeptRecordsNotified` | src/org/smssecure/smssecure/notifications/MessageNotifier.java:407-423 | Every record whose thread is not muted has its item in the list. |
| `MessageNotifier.NothingMutedKeepsAll` | src/org/smssecure/smssecure/notifications/MessageNotifier.java:421-423 | With no muted thread, there is one item per record. |
| `MessageNotifier.ConstructNotificationState` | src/org/smssecure/smssecure/notifications/MessageNotifier.java:384-428 | The loop produces exactly `NotificationsOf` the unread records. |
| `MessageNotifier.ThreadsOf` | src/org/smssecure/smssecure/notifications/MessageNotifier.java:179-183 | Exactly the threads of the items; never more threads than items. |
| `MessageNotifier.ReminderFor` | src/org/smssecure/smssecure/notifications/MessageNotifier.java:466-479 | A reminder carrying the count is scheduled exactly when the count is below the repeat limit. |
| `MessageNotifier.ReminderChainBounded` | src/org/smssecure/smssecure/notifications/MessageNotifier.java:466-497 | A chain of reminders, each receiver updating with the count plus one, fires exactly the limit minus the start times, with counts rising by one. |
| `MessageNotifier.InThreadSound` | src/org/smssecure/smssecure/notifications/MessageNotifier.java:335-382 | At most one sound, and none with in-thread notifications off. The recipients' ringtone wins; without one (or without recipients) the default ringtone plays when it is set, and nothing plays otherwise. |
| `MessageNotifier.Notifier.constructor` | src/org/smssecure/smssecure/notifications/MessageNotifier.java:85 | No thread is visible (-1), no notification is posted and nothing is scheduled. |
| `MessageNotifier.Notifier.SetVisibleThread` | src/org/smssecure/smssecure/notifications/MessageNotifier.java:89-91 | Only the visible thread changes. |
| `MessageNotifier.Notifier.SendInThreadNotification` | src/org/smssecure/smssecure/notifications/MessageNotifier.java:335-382 | Plays exactly `InThreadSound`; nothing else changes. |
| `MessageNotifier.Notifier.ScheduleReminder` | src/org/smssecure/smssecure/notifications/MessageNotifier.java:466-479 | The reminder is replaced by the count when it is below the limit, else left as it was. |
| `MessageNotifier.Notifier.SendNotification` | src/org/smssecure/smssecure/notifications/MessageNotifier.java:191-333 | No items cancels the notification under id 1338. Otherwise the items are posted under 1338 with the alarms, or the alarms' exception leaves every posted notification as it was. Other ids are untouched. |
| `MessageNotifier.PostedMessages` | src/org/smssecure/smssecure/notifications/MessageNotifier.java:191-273 | Posting or cancelling the message notification touches only id 1338: it is absent exactly when there are no items, and otherwise holds the items with their alarms. |
| `MessageNotifier.Notifier.Update` | src/org/smssecure/smssecure/notifications/MessageNotifier.java:160-189 | No unread message cancels notification 1338 and the reminder. Otherwise `UpdatePosts` holds: unmuted items are posted under 1338 with the alarms and the reminder is scheduled, and an alarms exception changes neither. |
| `MessageNotifier.Notifier.UpdateNotification` | src/org/smssecure/smssecure/notifications/MessageNotifier.java:132-138 | Nothing happens with notifications off. Otherwise an update without sound, vibration or ticker: no unread message cancels notification 1338 and the reminder, else `UpdatePosts`. |
| `MessageNotifier.Notifier.UpdateNotificationForThread` | src/org/smssecure/smssecure/notifications/MessageNotifier.java:140-158 | Nothing happens with notifications off or the thread muted. For the thread on screen, it is marked read and only the in-thread sound plays. Otherwise a signalling update. |
| `MessageNotifier.Notifier.OnReminder` | src/org/smssecure/smssecure/notifications/MessageNotifier.java:488-498 | The alarm that fired is no longer pending. A signalling update follows with the reminder count plus one, wrapped to `int`. No unread message cancels notification 1338 and leaves no reminder. Otherwise `UpdatePosts` holds from an empty reminder: after an alarms exception, or once the count reaches the limit, no reminder is pending, and any pending reminder carries the new count. |
| `MessageNotifier.Notifier.OnDelete` | src/org/smssecure/smssecure/notifications/MessageNotifier.java:500-508 | Only the reminder is cleared. |
| `MessageNotifier.Notifier.NotifyMessageDeliveryFailed` | src/org/smssecure/smssecure/notifications/MessageNotifier.java:107-130 | For the thread on screen, only the in-thread sound. Otherwise absent recipients are a `NullPointerException`; with recipients, a failure notice is posted under the thread id narrowed to `int`, replacing whatever that id held, exactly when the signalling alarms succeed. |
| `MessageNotifier.FailureNoticeAlarms` | src/org/smssecure/smssecure/notifications/MessageNotifier.java:125 | The failure notice's alarms fail exactly when signalling alarms with default vibration fail, with the same exception. |
| `MessageNotifier.FailureNoticeSharesMessageId` | src/org/smssecure/smssecure/notifications/MessageNotifier.java:127-128 | A failure notice for a thread whose id narrows to 1338 takes the message notification's place, and cancelling notification 1338 afterwards removes it. |
| `PushTransport.RouteFor` | src/org/thoughtcrime/securesms/transport/PushTransport.java:110-122 | The existing-session route exactly with a non-prekey session. The new-session route exactly with no session at all. |
| `PushTransport.TagFor` | src/org/thoughtcrime/securesms/transport/PushTransport.java:110-122 | Ciphertext (1) exactly for the existing-session route, prekey bundle (3) for the other two. |
| `PushTransport.EncryptedTags` | src/org/thoughtcrime/securesms/transport/PushTransport.java:38-41 | An encrypted message is never tagged plaintext (0) or key exchange (2). |
| `PushTransport.Attachments` | src/org/thoughtcrime/securesms/transport/PushTransport.java:89-104 | Every attachment is an image, audio or video part, and there are never more attachments than parts. |
| `PushTransport.MediaPositions` | src/org/thoughtcrime/securesms/transport/PushTransport.java:92-101 | Exactly the positions of the media parts, strictly increasing. |
| `PushTransport.AttachmentsInOrder` | src/org/thoughtcrime/securesms/transport/PushTransport.java:89-104 | The k-th attachment is the part at the k-th media position: exactly the media parts, in body order. |
| `PushTransport.NoMediaNoAttachments` | src/org/thoughtcrime/securesms/transport/PushTransport.java:95-100 | A body without image, audio or video parts gives no attachments. |
| `PushTransport.GetAttachmentsFromBody` | src/org/thoughtcrime/securesms/transport/PushTransport.java:89-104 | The loop returns exactly `Attachments` of the body. |
| `PushTransport.Reported` | src/org/thoughtcrime/securesms/transport/PushTransport.java:67-70 | A rate limit is reported as `IOException("Rate limit exceeded.")`; every other exception is reported unchanged. |
| `PushTransport.GetEncryptedMessage` | src/org/thoughtcrime/securesms/transport/PushTransport.java:106-156 | A prekey is fetched exactly on the new-session route, and a failed fetch is the only error. The result is the route's tag and ciphertext. Nothing is sent. |
| `PushTransport.DeliverSms` | src/org/thoughtcrime/securesms/transport/PushTransport.java:51-71 | Sends the ciphertext with the route's tag to the canonical number. Broadcasts "sent" exactly on success. Server failures are reported through `Reported`. |
| `PushTransport.DeliverMms` | src/org/thoughtcrime/securesms/transport/PushTransport.java:73-87 | Always tagged plaintext (0). Uses the attachment send exactly when the body has attachments. Server failures are reported through `Reported`. |
| `SMSSecurePreferences.GetBooleanPreference` | src/org/smssecure/smssecure/util/SMSSecurePreferences.java:488-490 | The default for an absent key, the stored boolean, or `ClassCastException` exactly for a value of another type. |
| `SMSSecurePreferences.GetStringPreference` | src/org/smssecure/smssecure/util/SMSSecurePreferences.java:496-498 | The default for an absent key, the stored string, or `ClassCastException` exactly for a value of another type. |
| `SMSSecurePreferences.GetIntegerPreference` | src/org/smssecure/smssecure/util/SMSSecurePreferences.java:500-502 | The default for an absent key, the stored `int`, or `ClassCastException` exactly for a value of another type. |
| `SMSSecurePreferences.GetLongPreference` | src/org/smssecure/smssecure/util/SMSSecurePreferences.java:512-514 | The default for an absent key, the stored `long`, or `ClassCastException` exactly for a value of another type. |
| `SMSSecurePreferences.PutString` | src/org/smssecure/smssecure/util/SMSSecurePreferences.java:492-494 | A later get of the key returns the value, or the default after a `null` removed it. Other keys are untouched. |
| `SMSSecurePreferences.GetRepeatAlertsCount` | src/org/smssecure/smssecure/util/SMSSecurePreferences.java:109-116 | 0 when unset. Fails only with `ClassCastException` for a non-string value. Otherwise an `int`. |
| `SMSSecurePreferences.RepeatAlertsRoundTrip` | src/org/smssecure/smssecure/util/SMSSecurePreferences.java:109-120 | Storing a count's decimal text reads back as that count. |
| `SMSSecurePreferences.UnparsableRepeatAlertsIsZero` | src/org/smssecure/smssecure/util/SMSSecurePreferences.java:110-115 | Stored text that `parseInt` rejects reads as 0. |
| `SMSSecurePreferences.GetGcmRegistrationId` | src/org/smssecure/smssecure/util/SMSSecurePreferences.java:135-143 | The stored id when the stored version equals the current one. An id is returned only then, and only the stored string. |
| `SMSSecurePreferences.StoreGcmRegistrationId` | src/org/smssecure/smssecure/util/SMSSecurePreferences.java:130-133 | The version stored with the id is the given one. |
| `SMSSecurePreferences.GcmRegistrationRoundTrip` | src/org/smssecure/smssecure/util/SMSSecurePreferences.java:130-143 | An id stored under a release reads back under that release, and reads as nothing under any other. |
| `SMSSecurePreferences.GetMmsUserAgent` | src/org/smssecure/smssecure/util/SMSSecurePreferences.java:330-335 | The caller's default unless the custom-agent switch is on. With the switch on, the stored agent or the default. |
| `SMSSecurePreferences.IsLegacyUseLocalApnsEnabled` | src/org/smssecure/smssecure/util/SMSSecurePreferences.java:345-347 | Off when unset. |
| `SMSSecurePreferences.GetUseCustom` | src/org/smssecure/smssecure/util/SMSSecurePreferences.java:245-248 | An unset switch follows the legacy manual-MMS switch. A set switch is its own value. |
| `SMSSecurePreferences.GetUseCustomMmsc` | src/org/smssecure/smssecure/util/SMSSecurePreferences.java:245-248 | Follows the legacy switch when unset. |
| `SMSSecurePreferences.GetUseCustomMmscProxy` | src/org/smssecure/smssecure/util/SMSSecurePreferences.java:262-265 | Follows the legacy switch when unset. |
| `SMSSecurePreferences.GetUseCustomMmscProxyPort` | src/org/smssecure/smssecure/util/SMSSecurePreferences.java:279-282 | Follows the legacy switch when unset. |
| `SMSSecurePreferences.GetUseCustomMmscUsername` | src/org/smssecure/smssecure/util/SMSSecurePreferences.java:296-299 | Follows the legacy switch when unset. |
| `SMSSecurePreferences.GetUseCustomMmscPassword` | src/org/smssecure/smssecure/util/SMSSecurePreferences.java:313-316 | Follows the legacy switch when unset. |
| `SMSSecurePreferences.CustomFlagOverridesLegacy` | src/org/smssecure/smssecure/util/SMSSecurePreferences.java:245-252 | Setting a custom-MMSC switch overrides the legacy switch. |
| `SMSSecurePreferences.GetLastVersionCode` | src/org/smssecure/smssecure/util/SMSSecurePreferences.java:349-351 | 0 until a version code is stored. |
| `SMSSecurePreferences.IsFallbackSmsAllowed` | src/org/smssecure/smssecure/util/SMSSecurePreferences.java:145-149 | Always false, whatever is stored. |
| `SMSSecurePreferences.IsFallbackSmsAskRequired` | src/org/smssecure/smssecure/util/SMSSecurePreferences.java:155-159 | Always false, whatever is stored. |
| `SMSSecurePreferences.IsFallbackMmsEnabled` | src/org/smssecure/smssecure/util/SMSSecurePreferences.java:165-169 | Always true, whatever is stored. |
| `SMSSecurePreferences.IsDirectSmsAllowed` | src/org/smssecure/smssecure/util/SMSSecurePreferences.java:175-179 | Always true, whatever is stored. |
| `SMSSecurePreferences.SharedPreferences.SetBooleanPreference` | src/org/smssecure/smssecure/util/SMSSecurePreferences.java:484-486 | Stores the boolean under the key, which then reads back whatever the default. |
| `SMSSecurePreferences.SharedPreferences.SetStringPreference` | src/org/smssecure/smssecure/util/SMSSecurePreferences.java:492-494 | The store becomes `PutString` of the old one. |
| `SMSSecurePreferences.SharedPreferences.SetIntegerPreference` | src/org/smssecure/smssecure/util/SMSSecurePreferences.java:504-506 | Stores the `int` under the key, which then reads back whatever the default. |
| `SMSSecurePreferences.SharedPreferences.SetIntegerPreferenceBlocking` | src/org/smssecure/smssecure/util/SMSSecurePreferences.java:508-510 | Stores the `int` and answers the commit's outcome. |
| `SMSSecurePreferences.SharedPreferences.SetLongPreference` | src/org/smssecure/smssecure/util/SMSSecurePreferences.java:516-518 | Stores the `long` under the key, which then reads back whatever the default. |
| `SMSSecurePreferences.SharedPreferences.SetRepeatAlertsCount` | src/org/smssecure/smssecure/util/SMSSecurePreferences.java:118-120 | Stores the decimal text, after which `GetRepeatAlertsCount` returns the count. |
| `SMSSecurePreferences.SharedPreferences.SetGcmRegistrationId` | src/org/smssecure/smssecure/util/SMSSecurePreferences.java:130-133 | Stores the id and the current version, after which the id reads back. |
| `SMSSecurePreferences.SharedPreferences.SetFallbackSmsAllowed` | src/org/smssecure/smssecure/util/SMSSecurePreferences.java:151-153 | Stores the switch, yet the getter still answers false. |
| `SMSSecurePreferences.SharedPreferences.SetFallbackSmsAskRequired` | src/org/smssecure/smssecure/util/SMSSecurePreferences.java:161-163 | Stores the switch, yet the getter still answers false. |
| `SMSSecurePreferences.SharedPreferences.SetFallbackMmsEnabled` | src/org/smssecure/smssecure/util/SMSSecurePreferences.java:171-173 | Stores the switch, yet the getter still answers true. |
| `SMSSecurePreferences.SharedPreferences.SetDirectSmsAllowed` | src/org/smssecure/smssecure/util/SMSSecurePreferences.java:181-183 | Stores the switch, yet the getter still answers true. |
| `SMSSecurePreferences.SharedPreferences.SetLastVersionCode` | src/org/smssecure/smssecure/util/SMSSecurePreferences.java:353-357 | The code is in the store either way. An `IOException` is raised exactly when the commit reports failure. |
| `JavaLang.ParseInt` | src/org/smssecure/smssecure/notifications/MessageNotifier.java:454-455 | `Integer.parseInt`: an `int`, or `NumberFormatException` for anything else, `null` included. |
| `JavaLang.ParseIntOfIntToString` | src/org/smssecure/smssecure/util/SMSSecurePreferences.java:111-119 | Every `int` printed by `String.valueOf` parses back to itself. |
| `JavaLang.Split` | src/org/smssecure/smssecure/notifications/MessageNotifier.java:463 | `split(",")` yields pieces without commas. |
| `JavaLang.SplitJoin` | src/org/smssecure/smssecure/notifications/MessageNotifier.java:463 | Splitting comma-joined pieces gives the pieces back when the last one is not empty. |

## Left out

- `JavaLang.ParseInt`: accepts only the ASCII digits 0-9. `Integer.parseInt` also takes the other Unicode decimal digits through `Character.digit` (Arabic-Indic digits, for example). The model raises `NumberFormatException` for such text, so `GetRepeatAlertsCount` reads it as 0 where Java returns its value.
- `BitmapUtil.GetScaleFactor`: requires both maxima to be at least 1 and the input sides to be `int`s. The inputs this leaves out behave in Java as follows:
  - Constrained, with a maximum of 0 and no negative maximum, the loop ends normally with the smallest power of two that brings both sides within their maxima. The exception is a side of 2^30 or more whose maximum is 0: the factor doubles to the wrapped value -2^31, which is returned.
  - Constrained, with a negative maximum, the doubling overflows to -2^31 and then 0, and the next division raises `ArithmeticException`.
  - Unconstrained, with both maxima at most 0 and both sides at least 0, the same overflow ends in `ArithmeticException`.
  - The other left-out cases end normally: unconstrained with only one maximum below 1, or with a negative side.
- `BitmapUtil.CreateScaledBytes`: the bounds on the qualities tried are stated only for a non-negative `maxSize`. Decoding the image, the out-of-memory fallback to a rough scale, the log line and `recycle` are left out. The compressor is a parameter.
- `BitmapUtil.RotateNV21`: the index arithmetic uses unbounded integers. For a buffer that is not an NV21 frame, Java's 32-bit overflow of `j * width + i` is not modelled; the model then only promises an index-out-of-bounds failure or success.
- `BitmapUtil.CreateFromNV21`: the cropping rectangle, the JPEG quality 80 and `YuvImage` are inside the encoder parameter.
- `createScaledBitmap` with its floating-point aspect ratio, `createFromDrawable` (a cross-thread handoff), EXIF orientation, `rotateBitmap` and `getCircleBitmap` are Android graphics calls and are not modelled.
- `ConversationItem`:
  - `MessageRecord` and its subclasses are not part of this model. A message is the record of the flags the item reads, taken as independent booleans.
  - Left out: view inflation, the bubble and selection backgrounds, contact photos, group status and `setMinimumWidth` (floating-point density).
  - `checkForAutoInitiate` (a key-exchange prompt) and `ThumbnailClickListener` are left out. The MMS download and preferences listeners are recorded only as the listener a click reaches; what they do is not modelled. `MmsDatabase.Status` is not part of this model: an MMS notification's status enters as the three answers the item asks of it, and the size and expiry texts as their numbers.
  - `handleKeyExchangeClicked` and the details screen are reduced to the click action they start.
  - The `indicatorText != null` test in `setFailedStatusIcons` is taken as always true.
- `MessageNotifier`:
  - `NotificationState` and `NotificationItem` are not part of this model.
  - The thread's ringtone and vibrate state are parameters of an update.
  - A notification is recorded as its items, alarms and whether it has a ticker. Titles, big text, actions and wearable extensions are not modelled.
  - `Color.parseColor` is a parameter.
  - The `MediaPlayer` of the in-thread sound is recorded as the URI played. Its caught `IOException` is not modelled.
  - `sendDeliveryToast` runs on a new thread with a Looper and is not modelled.
  - The master-secret choice of database reader is not modelled.
  - Alarm times (two minutes ahead) are not modelled.
- `PushTransport`:
  - The ciphers, `PreKeyBundleMessage`, `KeyExchangeProcessor`, `PhoneNumberFormatter`, `PartParser.getMessageText` and the socket set-up are outside the model. The cipher is a function of route and plaintext, and the canonical number and message text are parameters.
  - An exception from the cipher itself is not modelled; only the server's prekey and send failures are.
  - `Util.toIsoString` is taken as the identity on content types.
- `SMSSecurePreferences`:
  - The remaining one-line getters and setters apply the generic accessors to a fixed key and default. They are not repeated one by one.
  - `getThreadTrimLength` parses without a fallback and is not modelled.
  - `apply()`'s asynchronous disk write is not modelled.
  - The running release's version and the outcome of `commit()` are parameters.

## Findings

None: every contract above was proved about the code as written.

=== FILE: BitmapUtil.dfy ===
/**
 * The integer logic of SMSSecure's `BitmapUtil`: the power-of-two
 * down-sampling factor, the JPEG quality search of `createScaledBytes`, the
 * NV21 frame rotation and the frame size handed on by `createFromNV21`.
 *
 * The Android codecs are parameters: `compress` maps a JPEG quality to the
 * bytes the compressor writes for the (already decoded and scaled) bitmap,
 * and `encodeJpeg` maps a rotated NV21 frame and its size to the JPEG bytes.
 */
module BitmapUtil {
  import opened Wrappers
  import opened JavaLang
  import opened Nv21

  const MAX_COMPRESSION_QUALITY: int := 95
  const MIN_COMPRESSION_QUALITY: int := 50
  const MAX_COMPRESSION_ATTEMPTS: int := 4

  // ---------------------------------------------------------------------
  // getScaleFactor

  predicate IsPowerOfTwo(n: int)
    decreases if n < 0 then 0 else n
  {
    n == 1 || (n > 1 && n % 2 == 0 && IsPowerOfTwo(n / 2))
  }

  lemma {:induction false} PowerOfTwoPositive(n: int)
    requires IsPowerOfTwo(n)
    ensures n >= 1
  {
  }

  lemma DoublePower(n: int)
    requires IsPowerOfTwo(n)
    ensures IsPowerOfTwo(2 * n)
  {
    assert (2 * n) / 2 == n;
  }

  /** Two distinct powers of two lie at least a factor of two apart. */
  lemma {:induction false} PowersApart(s: int, p: int)
    requires IsPowerOfTwo(s) && IsPowerOfTwo(p) && s < p
    ensures 2 * s <= p
    decreases s
  {
    if s > 1 {
      PowersApart(s / 2, p / 2);
    }
  }

  /** Sub-sampling by `scaler` keeps both sides within their maxima. */
  predicate Fits(inWidth: int, inHeight: int, maxWidth: int, maxHeight: int, scaler: int)
    requires scaler > 0
  {
    Quot(inWidth, scaler) <= maxWidth && Quot(inHeight, scaler) <= maxHeight
  }

  lemma {:induction false} DivSplit(b: int, d: int, k: int)
    requires d > 0 && k >= 0 && 0 <= b - k * d < d
    ensures b / d == k
  {
    var q := b / d;
    assert b == q * d + b % d;
    if q > k {
      MulLeMono(k + 1, q, d);
    } else if q < k {
      MulLeMono(q + 1, k, d);
    }
  }

  lemma {:induction false} DivTwice(b: int, s: int)
    requires b >= 0 && s > 0
    ensures b / s / 2 == b / (2 * s)
  {
    var q := b / s;
    var q2 := q / 2;
    assert b == q * s + b % s;
    if q % 2 == 0 {
      assert q == 2 * q2;
      MulAssoc(2, q2, s);
      assert b - q2 * (2 * s) == b % s;
    } else {
      assert q == 2 * q2 + 1;
      MulAssoc(2, q2, s);
      assert b - q2 * (2 * s) == s + b % s;
    }
    DivSplit(b, 2 * s, q2);
  }

  lemma MulAssoc(a: int, b: int, c: int)
    ensures (a * b) * c == b * (a * c)
  {
  }

  /** Halving an already truncated quotient is dividing by twice the divisor. */
  lemma {:induction false} QuotTwice(a: int, s: int)
    requires s > 0
    ensures Quot(Quot(a, s), 2) == Quot(a, 2 * s)
  {
    if a >= 0 {
      DivTwice(a, s);
    } else {
      var b := -a;
      DivTwice(b, s);
      var q := b / s;
      assert Quot(a, s) == -q;
      assert Quot(-q, 2) == -(q / 2);
      assert Quot(a, 2 * s) == -(b / (2 * s));
    }
  }

  /** `q >= 2` for a quotient by `s` means the dividend holds two whole `s`. */
  lemma {:induction false} TwoWhole(a: int, s: int)
    requires s > 0 && a >= 0 && a / s >= 2
    ensures a >= 2 * s
  {
    MulLeMono(2, a / s, s);
  }

  /**
   * `getScaleFactor`: the power of two to sub-sample an `inWidth` by
   * `inHeight` image by.  Unconstrained, the largest factor that keeps both
   * sides at or above their maxima; constrained, the smallest factor that
   * brings both sides within them.
   */
  method GetScaleFactor(inWidth: int, inHeight: int, maxWidth: int, maxHeight: int, constrained: bool)
    returns (scaler: int)
    requires IsInt32(inWidth) && IsInt32(inHeight) && maxWidth >= 1 && maxHeight >= 1
    ensures IsPowerOfTwo(scaler) && IsInt32(scaler)
    ensures !constrained ==>
      !(Quot(inWidth, 2 * scaler) >= maxWidth && Quot(inHeight, 2 * scaler) >= maxHeight)
    ensures !constrained && scaler > 1 ==>
      Quot(inWidth, scaler) >= maxWidth && Quot(inHeight, scaler) >= maxHeight
    ensures constrained ==> Fits(inWidth, inHeight, maxWidth, maxHeight, scaler)
    ensures constrained ==> forall p :: 1 <= p < scaler && IsPowerOfTwo(p) ==>
      !Fits(inWidth, inHeight, maxWidth, maxHeight, p)
  {
    scaler := 1;
    while !constrained && (Quot(Quot(inWidth, scaler), 2) >= maxWidth && Quot(Quot(inHeight, scaler), 2) >= maxHeight)
      invariant IsPowerOfTwo(scaler) && 1 <= scaler <= INT_MAX
      invariant constrained ==> scaler == 1
      invariant scaler > 1 ==> Quot(inWidth, scaler) >= maxWidth && Quot(inHeight, scaler) >= maxHeight
      decreases inWidth - scaler
    {
      QuotTwice(inWidth, scaler);
      QuotTwice(inHeight, scaler);
      TwoWhole(inWidth, scaler);
      DoublePower(scaler);
      scaler := Wrap32(scaler * 2);
    }
    if !constrained {
      QuotTwice(inWidth, scaler);
      QuotTwice(inHeight, scaler);
    }
    ghost var firstScaler := scaler;
    while constrained && (Quot(inWidth, scaler) > maxWidth || Quot(inHeight, scaler) > maxHeight)
      invariant IsPowerOfTwo(scaler) && 1 <= scaler <= INT_MAX
      invariant constrained ==> forall p :: 1 <= p < scaler && IsPowerOfTwo(p) ==>
        !Fits(inWidth, inHeight, maxWidth, maxHeight, p)
      invariant !constrained ==> scaler == firstScaler
      decreases (if inWidth > inHeight then inWidth else inHeight) - scaler
    {
      if Quot(inWidth, scaler) > maxWidth {
        TwoWhole(inWidth, scaler);
      } else {
        TwoWhole(inHeight, scaler);
      }
      ghost var previous := scaler;
      forall p | 1 <= p < 2 * previous && IsPowerOfTwo(p)
        ensures !Fits(inWidth, inHeight, maxWidth, maxHeight, p)
      {
        if previous < p {
          PowersApart(previous, p);
        }
      }
      DoublePower(scaler);
      scaler := Wrap32(scaler * 2);
      assert scaler == 2 * previous;
    }
  }

  // ---------------------------------------------------------------------
  // createScaledBytes

  /**
   * The quality tried after a compression of `size` bytes at `quality`:
   * `Math.max((quality * maxSize) / size, MIN_COMPRESSION_QUALITY)` in
   * 32-bit `int` arithmetic.
   */
  function NextQuality(quality: int, maxSize: int, size: int): (next: int)
    requires size > 0
    ensures next >= MIN_COMPRESSION_QUALITY
  {
    var scaled := Quot(Wrap32(quality * maxSize), size);
    if scaled >= MIN_COMPRESSION_QUALITY then scaled else MIN_COMPRESSION_QUALITY
  }

  lemma WrapBelow(x: int)
    requires x >= 0
    ensures Wrap32(x) <= x
  {
  }

  /**
   * An output that was too large lowers the quality (down to the minimum),
   * even when `quality * maxSize` overflows `int`.
   */
  lemma {:induction false} NextQualityLowers(quality: int, maxSize: int, size: int)
    requires MIN_COMPRESSION_QUALITY <= quality && 0 <= maxSize < size
    ensures MIN_COMPRESSION_QUALITY <= NextQuality(quality, maxSize, size) <= quality
    ensures NextQuality(quality, maxSize, size) < quality
         || NextQuality(quality, maxSize, size) == MIN_COMPRESSION_QUALITY
  {
    var x := quality * maxSize;
    MulLeMono(maxSize, size - 1, quality);
    assert x < quality * size;
    var w := Wrap32(x);
    WrapBelow(x);
    if w >= 0 {
      DivBelow(w, size, quality);
    }
  }

  /**
   * The qualities `tried` so far form the retry protocol: the first is 95,
   * each retry follows an oversized, non-empty output at the scaled-down
   * quality, and for a non-negative budget they stay in [50, 95] and never
   * rise.
   */
  ghost predicate RetryTrail(compress: int -> seq<bv8>, maxSize: int, tried: seq<int>) {
    && (|tried| > 0 ==> tried[0] == MAX_COMPRESSION_QUALITY)
    && (forall k :: 0 <= k < |tried| - 1 ==>
          |compress(tried[k])| > 0 && |compress(tried[k])| > maxSize
          && tried[k + 1] == NextQuality(tried[k], maxSize, |compress(tried[k])|))
    && (0 <= maxSize ==> forall k :: 0 <= k < |tried| ==>
          MIN_COMPRESSION_QUALITY <= tried[k] <= MAX_COMPRESSION_QUALITY)
    && (0 <= maxSize ==> forall k :: 0 <= k < |tried| - 1 ==> tried[k + 1] <= tried[k])
  }

  /** The quality the protocol tries after `tried`, whose last output was oversized. */
  lemma {:induction false} RetryTrailExtends(compress: int -> seq<bv8>, maxSize: int, tried: seq<int>, quality: int)
    requires RetryTrail(compress, maxSize, tried)
    requires |tried| == 0 ==> quality == MAX_COMPRESSION_QUALITY
    requires |tried| > 0 ==>
      && |compress(tried[|tried| - 1])| > 0 && |compress(tried[|tried| - 1])| > maxSize
      && quality == NextQuality(tried[|tried| - 1], maxSize, |compress(tried[|tried| - 1])|)
    ensures RetryTrail(compress, maxSize, tried + [quality])
  {
    var t := tried + [quality];
    if |tried| > 0 && 0 <= maxSize {
      NextQualityLowers(tried[|tried| - 1], maxSize, |compress(tried[|tried| - 1])|);
    }
    assert forall k :: 0 <= k < |tried| ==> t[k] == tried[k];
  }

  /**
   * `createScaledBytes` after the bitmap is decoded: compress at quality 95,
   * and while the output exceeds `maxSize` and fewer than four retries were
   * made, compress again at the quality scaled down by the overshoot.
   * `tried` lists the qualities handed to the compressor, in order.
   */
  method CreateScaledBytes(compress: int -> seq<bv8>, maxSize: int)
    returns (r: Result<seq<bv8>>, tried: seq<int>)
    requires IsInt32(maxSize)
    ensures 1 <= |tried| <= MAX_COMPRESSION_ATTEMPTS + 1
    ensures tried[0] == MAX_COMPRESSION_QUALITY
    ensures forall k :: 0 <= k < |tried| - 1 ==>
      |compress(tried[k])| > 0 && |compress(tried[k])| > maxSize
      && tried[k + 1] == NextQuality(tried[k], maxSize, |compress(tried[k])|)
    ensures 0 <= maxSize ==> forall k :: 0 <= k < |tried| ==>
      MIN_COMPRESSION_QUALITY <= tried[k] <= MAX_COMPRESSION_QUALITY
    ensures 0 <= maxSize ==> forall k :: 0 <= k < |tried| - 1 ==> tried[k + 1] <= tried[k]
    ensures r.Ok? ==> r.value == compress(tried[|tried| - 1]) && 0 < |r.value| <= maxSize
    ensures r.Err? && r.error == ArithmeticException <==> |compress(tried[|tried| - 1])| == 0
    ensures r.Err? && r.error != ArithmeticException ==>
      |tried| == MAX_COMPRESSION_ATTEMPTS + 1 && |compress(tried[|tried| - 1])| > maxSize
      && r.error == IOException("Unable to scale image below: " + IntToString(|compress(tried[|tried| - 1])|))
  {
    var quality := MAX_COMPRESSION_QUALITY;
    var attempts := 0;
    var bytes: seq<bv8> := [];
    tried := [];
    while true
      invariant |tried| == attempts <= MAX_COMPRESSION_ATTEMPTS
      invariant RetryTrail(compress, maxSize, tried)
      invariant attempts == 0 ==> quality == MAX_COMPRESSION_QUALITY
      invariant attempts > 0 ==>
        && |compress(tried[attempts - 1])| > 0 && |compress(tried[attempts - 1])| > maxSize
        && quality == NextQuality(tried[attempts - 1], maxSize, |compress(tried[attempts - 1])|)
      decreases MAX_COMPRESSION_ATTEMPTS - attempts
    {
      RetryTrailExtends(compress, maxSize, tried, quality);
      bytes := compress(quality);
      tried := tried + [quality];
      if |bytes| == 0 {
        // (quality * maxSize) / baos.size() divides by zero
        r := Err(ArithmeticException);
        return;
      }
      quality := NextQuality(quality, maxSize, |bytes|);
      if |bytes| <= maxSize {
        break;
      }
      // `attempts++ < MAX_COMPRESSION_ATTEMPTS` compares before it increments
      var retry := attempts < MAX_COMPRESSION_ATTEMPTS;
      if !retry {
        break;
      }
      attempts := attempts + 1;
    }
    if |bytes| <= maxSize {
      r := Ok(bytes);
    } else {
      r := Err(IOException("Unable to scale image below: " + IntToString(|bytes|)));
    }
  }

  // ---------------------------------------------------------------------
  // rotateNV21 and createFromNV21

  /** The angles `rotateNV21` accepts besides 0. */
  predicate IsQuarterTurn(rotation: int) {
    rotation == 90 || rotation == 180 || rotation == 270
  }

  /** The guard of `rotateNV21` rejects exactly the angles that are not a quarter turn. */
  lemma RotationGuard(rotation: int)
    requires rotation != 0
    ensures (Rem(rotation, 90) != 0 || rotation < 0 || rotation > 270) <==> !IsQuarterTurn(rotation)
  {
  }

  /**
   * `rotateNV21`: rotation 0 hands back the input array itself; an angle
   * that is negative, above 270 or not a multiple of 90 is an
   * `IllegalArgumentException`; otherwise every pixel's luma byte and chroma
   * pair are copied to their rotated positions in a fresh array of the same
   * length.  An index outside either array is an
   * `ArrayIndexOutOfBoundsException`, which never happens for an NV21 frame.
   */
  method RotateNV21(yuv: array<bv8>, width: int, height: int, rotation: int) returns (r: Result<array<bv8>>)
    ensures rotation == 0 ==> r == Ok(yuv)
    ensures rotation != 0 && !IsQuarterTurn(rotation) ==> r == Err(IllegalArgumentException)
    ensures IsQuarterTurn(rotation) && r.Ok? ==> fresh(r.value) && r.value.Length == yuv.Length
    ensures IsQuarterTurn(rotation) && r.Ok? && IsFrame(width, height, yuv.Length) ==>
      AllPlaced(r.value[..], yuv[..], width, height, RotationFlags(rotation))
    ensures IsQuarterTurn(rotation) ==> (r.Ok? || r == Err(ArrayIndexOutOfBoundsException))
    ensures IsQuarterTurn(rotation) && IsFrame(width, height, yuv.Length) ==> r.Ok?
  {
    if rotation == 0 {
      return Ok(yuv);
    }
    RotationGuard(rotation);
    if Rem(rotation, 90) != 0 || rotation < 0 || rotation > 270 {
      return Err(IllegalArgumentException);
    }
    var output := new bv8[yuv.Length];
    var f := RotationFlags(rotation);
    ghost var frame := IsFrame(width, height, yuv.Length);
    var j := 0;
    while j < height
      invariant 0 <= j && (j <= height || j == 0)
      invariant frame ==> PlacedBefore(output[..], yuv[..], width, height, f, 0, j)
    {
      var i := 0;
      while i < width
        invariant 0 <= i && (i <= width || i == 0)
        invariant frame ==> PlacedBefore(output[..], yuv[..], width, height, f, i, j)
      {
        ghost var before := output[..];
        var inBounds := RotatePixel(yuv, output, width, height, f, i, j);
        if !inBounds {
          return Err(ArrayIndexOutOfBoundsException);
        }
        if frame {
          CopyAdvances(before, yuv[..], width, height, f, i, j);
        }
        i := i + 1;
      }
      if frame {
        RowDone(output[..], yuv[..], width, height, f, j);
      }
      j := j + 1;
    }
    if frame {
      AllRowsDone(output[..], yuv[..], width, height, f);
    }
    return Ok(output);
  }

  /**
   * One iteration of the inner loop of `rotateNV21`: compute where pixel
   * (i, j) is read from and written to, and copy its luma byte and chroma
   * pair.  Answers false, writing nothing, when an index falls outside
   * either array, where Java throws `ArrayIndexOutOfBoundsException`.
   */
  method RotatePixel(yuv: array<bv8>, output: array<bv8>, width: int, height: int, f: Flags, i: int, j: int)
    returns (inBounds: bool)
    requires yuv != output && 0 <= i && 0 <= j
    modifies output
    ensures !inBounds ==> unchanged(output)
    ensures IsFrame(width, height, yuv.Length) && output.Length == yuv.Length && InGrid(width, height, i, j) ==>
      inBounds && output[..] == CopyPixel(old(output[..]), yuv[..], width, height, f, i, j)
  {
    // the source's `yIn`, `uIn` and `vIn`, then the swapped and flipped
    // coordinates' `yOut`, `uOut` and `vOut`, as the `Nv21` index functions
    var yIn := YIn(width, i, j);
    var uIn := UIn(width, height, i, j);
    var vIn := uIn + 1;
    var yOut := YOut(width, height, f, i, j);
    var uOut := UOut(width, height, f, i, j);
    var vOut := uOut + 1;
    if IsFrame(width, height, yuv.Length) && output.Length == yuv.Length && InGrid(width, height, i, j) {
      IndicesInRange(width, height, yuv.Length, f, i, j);
    }
    if !(0 <= yIn < yuv.Length && 0 <= uIn && vIn < yuv.Length
         && 0 <= yOut < output.Length && 0 <= uOut && vOut < output.Length) {
      return false;
    }
    output[yOut] := yuv[yIn];
    output[uOut] := yuv[uIn];
    output[vOut] := yuv[vIn];
    return true;
  }

  /**
   * The size of the frame `createFromNV21` hands to the JPEG encoder: width
   * and height trade places exactly when `rotation % 180 > 0`.
   */
  function RotatedDimensions(width: int, height: int, rotation: int): (d: (int, int))
    ensures d == (width, height) || d == (height, width)
  {
    if Rem(rotation, 180) > 0 then (height, width) else (width, height)
  }

  /**
   * The size `createFromNV21` announces is the size of the frame
   * `rotateNV21` produced, and that frame is again an NV21 frame of the
   * buffer's length.
   */
  lemma {:induction false} RotatedDimensionsAgree(width: int, height: int, len: int, rotation: int)
    requires rotation == 0 || IsQuarterTurn(rotation)
    requires IsFrame(width, height, len)
    ensures rotation == 0 ==> RotatedDimensions(width, height, rotation) == (width, height)
    ensures IsQuarterTurn(rotation) ==>
      var f := RotationFlags(rotation);
      RotatedDimensions(width, height, rotation) == (OutWidth(width, height, f), OutHeight(width, height, f))
    ensures IsFrame(RotatedDimensions(width, height, rotation).0, RotatedDimensions(width, height, rotation).1, len)
  {
    assert height * width == width * height;
  }

  /**
   * `createFromNV21`: rotate the frame, then encode it at its rotated size;
   * an angle `rotateNV21` rejects propagates as its exception.
   */
  method CreateFromNV21(data: array<bv8>, width: int, height: int, rotation: int,
                        encodeJpeg: (seq<bv8>, int, int) -> seq<bv8>)
    returns (r: Result<seq<bv8>>)
    ensures rotation != 0 && !IsQuarterTurn(rotation) ==> r == Err(IllegalArgumentException)
    ensures rotation == 0 ==> r == Ok(encodeJpeg(data[..], width, height))
    ensures IsQuarterTurn(rotation) && IsFrame(width, height, data.Length) ==>
      r.Ok? && exists rotated: seq<bv8> ::
        |rotated| == data.Length
        && AllPlaced(rotated, data[..], width, height, RotationFlags(rotation))
        && r.value == encodeJpeg(rotated, OutWidth(width, height, RotationFlags(rotation)),
                                 OutHeight(width, height, RotationFlags(rotation)))
  {
    var rotated := RotateNV21(data, width, height, rotation);
    if rotated.Err? {
      return Err(rotated.error);
    }
    var (rotatedWidth, rotatedHeight) := RotatedDimensions(width, height, rotation);
    if IsQuarterTurn(rotation) && IsFrame(width, height, data.Length) {
      RotatedDimensionsAgree(width, height, data.Length, rotation);
    }
    r := Ok(encodeJpeg(rotated.value[..], rotatedWidth, rotatedHeight));
  }
}

=== FILE: ConversationItem.dfy ===
/**
 * The decision logic of SMSSecure's `ConversationItem`, the view of one
 * message in a conversation: which of the five delivery indicators is
 * shown, what the status line says, when the item is clickable, what a
 * click does, and how approving or declining a pending SMS fallback updates
 * the stored message.
 *
 * A message is a record of the flags `MessageRecord` answers; the Android
 * views are reduced to their visibility and text.
 */
module ConversationItem {
  import opened Wrappers


  /** The flags and values of a `MessageRecord` that the item consults. */
  datatype MessageRecord = MessageRecord(
    id: int,
    outgoing: bool,
    failed: bool,
    pending: bool,
    delivered: bool,
    secure: bool,
    keyExchange: bool,
    corruptedKeyExchange: bool,
    processedKeyExchange: bool,
    staleKeyExchange: bool,
    pendingSmsFallback: bool,
    pendingSecureSmsFallback: bool,
    pendingInsecureSmsFallback: bool,
    groupAction: bool,
    mms: bool,
    mmsNotification: bool,
    partCount: int,
    displayBody: string,
    dateSent: int,
    dateReceived: int,
    recipientNumber: string)

  // ---------------------------------------------------------------------
  // StatusManager

  datatype Indicator = Pending | Sent | Delivered | Failed | Approval

  /** The five delivery indicators of one item, each visible or gone. */
  class StatusManager {
    var pendingVisible: bool
    var sentVisible: bool
    var deliveredVisible: bool
    var failedVisible: bool
    var approvalVisible: bool

    constructor(pending: bool, sent: bool, delivered: bool, failed: bool, approval: bool)
      ensures pendingVisible == pending && sentVisible == sent && deliveredVisible == delivered
      ensures failedVisible == failed && approvalVisible == approval
    {
      pendingVisible, sentVisible, deliveredVisible := pending, sent, delivered;
      failedVisible, approvalVisible := failed, approval;
    }

    /** The indicators currently visible. */
    function Visible(): set<Indicator>
      reads this
    {
      (if pendingVisible then {Pending} else {})
      + (if sentVisible then {Sent} else {})
      + (if deliveredVisible then {Delivered} else {})
      + (if failedVisible then {Failed} else {})
      + (if approvalVisible then {Approval} else {})
    }

    method DisplayFailed()
      modifies this
      ensures Visible() == {Failed}
    {
      pendingVisible := false;
      sentVisible := false;
      deliveredVisible := false;
      approvalVisible := false;
      failedVisible := true;
    }

    method DisplayPendingApproval()
      modifies this
      ensures Visible() == {Approval}
    {
      pendingVisible := false;
      sentVisible := false;
      deliveredVisible := false;
      failedVisible := false;
      approvalVisible := true;
    }

    method DisplayPending()
      modifies this
      ensures Visible() == {Pending}
    {
      sentVisible := false;
      deliveredVisible := false;
      failedVisible := false;
      approvalVisible := false;
      pendingVisible := true;
    }

    method DisplaySent()
      modifies this
      ensures Visible() == {Sent}
    {
      pendingVisible := false;
      deliveredVisible := false;
      failedVisible := false;
      approvalVisible := false;
      sentVisible := true;
    }

    method DisplayDelivered()
      modifies this
      ensures Visible() == {Delivered}
    {
      pendingVisible := false;
      failedVisible := false;
      approvalVisible := false;
      sentVisible := false;
      deliveredVisible := true;
    }
  }

  // ---------------------------------------------------------------------
  // Status priority

  /** The indicator `setStatusIcons` selects, by its chain of tests. */
  function StatusFor(m: MessageRecord): (s: Indicator)
    ensures s != Sent ==> Applies(m, s)
  {
    if m.failed then Failed
    else if m.pendingInsecureSmsFallback then Approval
    else if m.pending then Pending
    else if m.delivered then Delivered
    else Sent
  }

  /** The message's flags call for indicator `s` (Sent is the fallback and always applies). */
  predicate Applies(m: MessageRecord, s: Indicator) {
    match s
    case Failed => m.failed
    case Approval => m.pendingInsecureSmsFallback
    case Pending => m.pending
    case Delivered => m.delivered
    case Sent => true
  }

  /** Priority of an indicator: failed > pending approval > pending > delivered > sent. */
  function Rank(s: Indicator): (r: nat)
    ensures r <= 4
  {
    match s
    case Failed => 4
    case Approval => 3
    case Pending => 2
    case Delivered => 1
    case Sent => 0
  }

  /** The indicator shown is the applicable one of highest priority. */
  lemma {:induction false} StatusIsHighestApplicable(m: MessageRecord, s: Indicator)
    requires Applies(m, s)
    ensures Applies(m, StatusFor(m))
    ensures Rank(s) <= Rank(StatusFor(m))
    ensures Rank(s) == Rank(StatusFor(m)) ==> s == StatusFor(m)
  {
  }

  // ---------------------------------------------------------------------
  // Shape of the item

  /** `hasConversationBubble`: every message but a group action gets a bubble. */
  predicate HasConversationBubble(m: MessageRecord) {
    !m.groupAction
  }

  /** `isCaptionlessMms`: an MMS whose display body is empty. */
  predicate IsCaptionlessMms(m: MessageRecord) {
    |m.displayBody| == 0 && m.mms
  }

  /** `hasMedia`: a downloaded MMS with at least one part. */
  predicate HasMedia(m: MessageRecord) {
    m.mms && !m.mmsNotification && m.partCount > 0
  }

  /** The thumbnail's progress indicator: not failed, and incoming or still pending. */
  predicate ShowProgress(m: MessageRecord) {
    !m.failed && (!m.outgoing || m.pending)
  }

  datatype Thumbnail = ThumbnailGone | ThumbnailShown(progress: bool)

  /** `setMediaAttributes`: what the media thumbnail shows. */
  function MediaThumbnail(m: MessageRecord): (t: Thumbnail)
    ensures t.ThumbnailShown? ==> m.mms && !m.mmsNotification && m.partCount > 0
    ensures t.ThumbnailShown? ==> (t.progress <==> !m.failed && (!m.outgoing || m.pending))
    ensures m.mms && !m.mmsNotification && m.partCount > 0 ==> t.ThumbnailShown?
  {
    if m.mmsNotification then ThumbnailGone
    else if HasMedia(m) then ThumbnailShown(ShowProgress(m))
    else ThumbnailGone
  }

  /** `setBodyText`: the body text is shown unless the message is a captionless MMS. */
  function BodyVisible(m: MessageRecord): (visible: bool)
    ensures !visible <==> m.mms && |m.displayBody| == 0
  {
    !IsCaptionlessMms(m)
  }

  /** An SMS always shows its body, and a plain text message never shows a thumbnail. */
  lemma {:induction false} SmsShowsOnlyText(m: MessageRecord)
    requires !m.mms
    ensures BodyVisible(m) && MediaThumbnail(m) == ThumbnailGone
  {
  }

  /** An item with neither body text nor thumbnail is an MMS without downloaded parts. */
  lemma {:induction false} NothingShownMeansEmptyMms(m: MessageRecord)
    requires !BodyVisible(m) && MediaThumbnail(m) == ThumbnailGone
    ensures m.mms && (m.mmsNotification || m.partCount <= 0)
  {
  }

  // ---------------------------------------------------------------------
  // Status line

  datatype DateText = RelativeTime(timestamp: int) | ErrorNotDelivered | SizeAndExpiry(messageSize: int, expiration: int)
  datatype IndicatorText = ClickForDetails | ClickToApproveUnencrypted | EmptyText

  /** The time shown: sent or received, by the `showSentTime` preference. */
  function DisplayedTimestamp(m: MessageRecord, showSentTime: bool): (t: int)
    ensures t == m.dateSent || t == m.dateReceived
    ensures showSentTime ==> t == m.dateSent
    ensures !showSentTime ==> t == m.dateReceived
  {
    if showSentTime then m.dateSent else m.dateReceived
  }

  /** The parts of one item's view that the status and event code sets. */
  class ItemView {
    const statusManager: StatusManager
    var secureIconVisible: bool
    var keyExchangeIconShown: bool
    var dateText: DateText
    var indicatorVisible: bool
    var indicatorText: IndicatorText
    var downloadButtonVisible: bool
    var downloadingLabelVisible: bool
    var clickable: bool
    var longClickSelects: bool
    var bodyVisible: bool
    var thumbnail: Thumbnail
    /** The listener a click on the item goes to. */
    var clickHandler: ClickHandler

    constructor(statusManager: StatusManager)
      ensures this.statusManager == statusManager
      ensures !clickable && !longClickSelects && clickHandler == ItemClicks
    {
      this.statusManager := statusManager;
      secureIconVisible, keyExchangeIconShown := false, false;
      dateText := RelativeTime(0);
      indicatorVisible, indicatorText := false, EmptyText;
      downloadButtonVisible, downloadingLabelVisible := false, false;
      clickable, longClickSelects := false, false;
      bodyVisible, thumbnail := true, ThumbnailGone;
      clickHandler := ItemClicks;
    }

    /**
     * `setStatusIcons`: hide the download widgets and the indicator text,
     * show the secure icon for a secure message, show the chosen timestamp,
     * then select the indicator by priority; a failed message replaces the
     * date with an error and asks to be clicked for details, a pending
     * insecure fallback asks to be approved.
     */
    method SetStatusIcons(m: MessageRecord, showSentTime: bool)
      modifies this, statusManager
      ensures !downloadButtonVisible && !downloadingLabelVisible
      ensures secureIconVisible == m.secure && keyExchangeIconShown == m.keyExchange
      ensures statusManager.Visible() == {StatusFor(m)}
      ensures m.failed ==> dateText == ErrorNotDelivered
      ensures !m.failed ==> dateText == RelativeTime(DisplayedTimestamp(m, showSentTime))
      ensures indicatorVisible <==> StatusFor(m) in {Failed, Approval}
      ensures StatusFor(m) == Failed ==> indicatorText == ClickForDetails
      ensures StatusFor(m) == Approval ==>
        indicatorText == if m.pendingSecureSmsFallback then EmptyText else ClickToApproveUnencrypted
      ensures !indicatorVisible ==> indicatorText == old(indicatorText)
      ensures clickable == old(clickable) && longClickSelects == old(longClickSelects)
      ensures bodyVisible == old(bodyVisible) && thumbnail == old(thumbnail) && clickHandler == old(clickHandler)
    {
      downloadButtonVisible := false;
      downloadingLabelVisible := false;
      indicatorVisible := false;

      secureIconVisible := m.secure;
      keyExchangeIconShown := m.keyExchange;

      var timestamp;
      if showSentTime {
        timestamp := m.dateSent;
      } else {
        timestamp := m.dateReceived;
      }
      dateText := RelativeTime(timestamp);

      if m.failed {
        SetFailedStatusIcons();
      } else if m.pendingInsecureSmsFallback {
        SetFallbackStatusIcons(m);
      } else if m.pending {
        statusManager.DisplayPending();
      } else if m.delivered {
        statusManager.DisplayDelivered();
      } else {
        statusManager.DisplaySent();
      }
    }

    /** `setFailedStatusIcons`: the failed indicator, an error for a date, and "click for details". */
    method SetFailedStatusIcons()
      modifies this, statusManager
      ensures statusManager.Visible() == {Failed}
      ensures dateText == ErrorNotDelivered && indicatorText == ClickForDetails && indicatorVisible
      ensures unchanged(this`downloadButtonVisible, this`downloadingLabelVisible, this`secureIconVisible,
                        this`keyExchangeIconShown, this`clickable, this`longClickSelects, this`bodyVisible,
                        this`thumbnail, this`clickHandler)
    {
      statusManager.DisplayFailed();
      dateText := ErrorNotDelivered;
      indicatorText := ClickForDetails;
      indicatorVisible := true;
    }

    /** `setFallbackStatusIcons`: the approval indicator, with a request to approve unless the fallback is secure. */
    method SetFallbackStatusIcons(m: MessageRecord)
      modifies this, statusManager
      ensures statusManager.Visible() == {Approval}
      ensures indicatorVisible
      ensures indicatorText == if m.pendingSecureSmsFallback then EmptyText else ClickToApproveUnencrypted
      ensures unchanged(this`downloadButtonVisible, this`downloadingLabelVisible, this`secureIconVisible,
                        this`keyExchangeIconShown, this`clickable, this`longClickSelects, this`bodyVisible,
                        this`thumbnail, this`dateText, this`clickHandler)
    {
      statusManager.DisplayPendingApproval();
      indicatorVisible := true;
      if m.pendingSecureSmsFallback {
        indicatorText := EmptyText;
      } else {
        indicatorText := ClickToApproveUnencrypted;
      }
    }

    /**
     * The clickability part of `setEvents`, plus the selection long-click a
     * failed message receives.
     */
    method SetEvents(m: MessageRecord, batchEmpty: bool)
      modifies this
      ensures clickable == Clickable(batchEmpty, m)
      ensures longClickSelects == (old(longClickSelects) || m.failed)
      ensures dateText == old(dateText) && indicatorVisible == old(indicatorVisible)
      ensures indicatorText == old(indicatorText) && secureIconVisible == old(secureIconVisible)
      ensures keyExchangeIconShown == old(keyExchangeIconShown)
      ensures bodyVisible == old(bodyVisible) && thumbnail == old(thumbnail) && clickHandler == old(clickHandler)
      ensures downloadButtonVisible == old(downloadButtonVisible) && downloadingLabelVisible == old(downloadingLabelVisible)
    {
      clickable := Clickable(batchEmpty, m);
      if m.failed {
        longClickSelects := true;
      }
    }

    /** `setBodyText`: show the display body unless the message is a captionless MMS. */
    method SetBodyText(m: MessageRecord)
      modifies this
      ensures bodyVisible == BodyVisible(m)
      ensures thumbnail == old(thumbnail) && clickable == old(clickable) && longClickSelects == old(longClickSelects)
      ensures clickHandler == old(clickHandler)
      ensures downloadButtonVisible == old(downloadButtonVisible) && downloadingLabelVisible == old(downloadingLabelVisible)
      ensures dateText == old(dateText) && indicatorVisible == old(indicatorVisible) && indicatorText == old(indicatorText)
      ensures secureIconVisible == old(secureIconVisible) && keyExchangeIconShown == old(keyExchangeIconShown)
    {
      if IsCaptionlessMms(m) {
        bodyVisible := false;
      } else {
        bodyVisible := true;
      }
    }

    /**
     * `setMediaAttributes`: the thumbnail for a downloaded MMS with parts,
     * hidden otherwise; an MMS notification also gets its notice attributes.
     */
    method SetMediaAttributes(m: MessageRecord, notice: MmsNotice)
      modifies this
      ensures thumbnail == MediaThumbnail(m)
      ensures m.mmsNotification ==> NoticeShown(this, m, notice, old(clickable), old(clickHandler))
      ensures !m.mmsNotification ==>
        && dateText == old(dateText) && clickable == old(clickable) && clickHandler == old(clickHandler)
        && downloadButtonVisible == old(downloadButtonVisible) && downloadingLabelVisible == old(downloadingLabelVisible)
      ensures bodyVisible == old(bodyVisible) && longClickSelects == old(longClickSelects)
      ensures indicatorVisible == old(indicatorVisible) && indicatorText == old(indicatorText)
      ensures secureIconVisible == old(secureIconVisible) && keyExchangeIconShown == old(keyExchangeIconShown)
    {
      if m.mmsNotification {
        thumbnail := ThumbnailGone;
        SetNotificationMmsAttributes(m, notice);
      } else if HasMedia(m) {
        thumbnail := ThumbnailShown(!m.failed && (!m.outgoing || m.pending));
      } else {
        thumbnail := ThumbnailGone;
      }
    }

    /**
     * `setNotificationMmsAttributes`: the date line gives the size and the
     * expiry; the download button or the status label is shown; an incoming
     * notice whose download failed hard, or found no APN, sends clicks to
     * the download or the MMS preferences listener, which makes the item
     * clickable.
     */
    method SetNotificationMmsAttributes(m: MessageRecord, notice: MmsNotice)
      modifies this
      ensures NoticeShown(this, m, notice, old(clickable), old(clickHandler))
      ensures unchanged(this`secureIconVisible, this`keyExchangeIconShown, this`indicatorVisible, this`indicatorText,
                        this`longClickSelects, this`bodyVisible, this`thumbnail)
    {
      dateText := SizeAndExpiry(notice.messageSize, notice.expiration);
      if notice.displayDownloadButton {
        downloadButtonVisible := true;
        downloadingLabelVisible := false;
      } else {
        downloadButtonVisible := false;
        downloadingLabelVisible := true;
        if notice.hardError && !m.outgoing {
          clickHandler := MmsDownloadClicks;
          clickable := true;
        } else if notice.apnUnavailable && !m.outgoing {
          clickHandler := MmsPreferencesClicks;
          clickable := true;
        }
      }
    }

    /**
     * `set`: the body text for every message; the status line, the events
     * and the media only for a message with a conversation bubble, so a
     * group action leaves all of those as they were.  For an MMS
     * notification the notice's size, expiry, download widgets and click
     * listener come last and win.
     */
    method Set(m: MessageRecord, notice: MmsNotice, batchEmpty: bool, showSentTime: bool)
      modifies this, statusManager
      ensures bodyVisible == BodyVisible(m)
      ensures HasConversationBubble(m) ==>
        && statusManager.Visible() == {StatusFor(m)}
        && longClickSelects == (old(longClickSelects) || m.failed)
        && thumbnail == MediaThumbnail(m)
        && secureIconVisible == m.secure && keyExchangeIconShown == m.keyExchange
        && (indicatorVisible <==> StatusFor(m) in {Failed, Approval})
        && (StatusFor(m) == Failed ==> indicatorText == ClickForDetails)
        && (StatusFor(m) == Approval ==>
              indicatorText == if m.pendingSecureSmsFallback then EmptyText else ClickToApproveUnencrypted)
        && (!indicatorVisible ==> indicatorText == old(indicatorText))
      ensures HasConversationBubble(m) && !m.mmsNotification ==>
        && (m.failed ==> dateText == ErrorNotDelivered)
        && (!m.failed ==> dateText == RelativeTime(DisplayedTimestamp(m, showSentTime)))
        && clickable == Clickable(batchEmpty, m) && clickHandler == old(clickHandler)
        && !downloadButtonVisible && !downloadingLabelVisible
      ensures HasConversationBubble(m) && m.mmsNotification ==>
        NoticeShown(this, m, notice, Clickable(batchEmpty, m), old(clickHandler))
      ensures !HasConversationBubble(m) ==>
        && statusManager.Visible() == old(statusManager.Visible())
        && dateText == old(dateText) && indicatorVisible == old(indicatorVisible)
        && indicatorText == old(indicatorText)
        && secureIconVisible == old(secureIconVisible) && keyExchangeIconShown == old(keyExchangeIconShown)
        && clickable == old(clickable) && longClickSelects == old(longClickSelects)
        && thumbnail == old(thumbnail) && clickHandler == old(clickHandler)
        && downloadButtonVisible == old(downloadButtonVisible) && downloadingLabelVisible == old(downloadingLabelVisible)
    {
      SetBodyText(m);
      if HasConversationBubble(m) {
        SetStatusIcons(m, showSentTime);
        SetEvents(m, batchEmpty);
        SetMediaAttributes(m, notice);
      }
    }
  }

  /**
   * What an MMS notification record adds: its size and expiry, and the
   * three tests `MmsDatabase.Status` answers about its download status.
   */
  datatype MmsNotice = MmsNotice(messageSize: int, expiration: int,
                                 displayDownloadButton: bool, hardError: bool, apnUnavailable: bool)

  /** The listener a click on the item reaches. */
  datatype ClickHandler = ItemClicks | MmsDownloadClicks | MmsPreferencesClicks

  /**
   * The listener `setNotificationMmsAttributes` installs, if any: only for
   * an incoming notice without a download button, whose download failed
   * hard (retry the download) or found no APN (open the MMS preferences).
   */
  function NoticeClickHandler(m: MessageRecord, notice: MmsNotice): (h: Option<ClickHandler>)
    ensures h.Some? ==> !notice.displayDownloadButton && !m.outgoing && h.value != ItemClicks
    ensures h == Some(MmsDownloadClicks) <==> !notice.displayDownloadButton && notice.hardError && !m.outgoing
    ensures h == Some(MmsPreferencesClicks) <==>
      !notice.displayDownloadButton && !notice.hardError && notice.apnUnavailable && !m.outgoing
  {
    if notice.displayDownloadButton || m.outgoing then None
    else if notice.hardError then Some(MmsDownloadClicks)
    else if notice.apnUnavailable then Some(MmsPreferencesClicks)
    else None
  }

  /**
   * The view after `setNotificationMmsAttributes`, from clickability and
   * listener `clickable0` and `handler0` before it.
   */
  predicate NoticeShown(v: ItemView, m: MessageRecord, notice: MmsNotice, clickable0: bool, handler0: ClickHandler)
    reads v
  {
    var h := NoticeClickHandler(m, notice);
    && v.dateText == SizeAndExpiry(notice.messageSize, notice.expiration)
    && v.downloadButtonVisible == notice.displayDownloadButton
    && v.downloadingLabelVisible == !notice.displayDownloadButton
    && v.clickHandler == (if h.Some? then h.value else handler0)
    && v.clickable == (h.Some? || clickable0)
  }

  // ---------------------------------------------------------------------
  // Clicks

  /**
   * `setEvents`' clickability, with Java's `&&` binding tighter than `||`:
   * a pending SMS fallback while nothing is selected, or an incoming
   * key exchange that is not corrupted, whatever the selection.
   */
  function Clickable(batchEmpty: bool, m: MessageRecord): (c: bool)
    ensures c ==> (batchEmpty && m.pendingSmsFallback) || (m.keyExchange && !m.corruptedKeyExchange && !m.outgoing)
    ensures batchEmpty && m.pendingSmsFallback ==> c
    ensures m.keyExchange && !m.corruptedKeyExchange && !m.outgoing ==> c
    ensures !batchEmpty && !m.keyExchange ==> !c
  {
    (batchEmpty && m.pendingSmsFallback) || (m.keyExchange && !m.corruptedKeyExchange && !m.outgoing)
  }

  /** The other reading of the same condition, with the selection test outermost. */
  predicate OuterSelectionClickable(batchEmpty: bool, m: MessageRecord) {
    batchEmpty && (m.pendingSmsFallback || (m.keyExchange && !m.corruptedKeyExchange && !m.outgoing))
  }

  /**
   * The precedence matters: an incoming key exchange stays clickable while
   * other messages are selected, which the reading with the selection test
   * outermost would forbid.
   */
  lemma {:induction false} KeyExchangeClickableDuringSelection(m: MessageRecord)
    requires m.keyExchange && !m.corruptedKeyExchange && !m.outgoing
    ensures Clickable(false, m)
    ensures !OuterSelectionClickable(false, m)
  {
  }

  datatype ClickAction =
    | ToggleSelection
    | ShowDetails(mmsTransport: bool)
    | ShowKeyDialog
    | HandleApproval
    | NoAction

  /** `ClickListener.onClick`: the first matching case, in source order. */
  function OnClick(batchEmpty: bool, m: MessageRecord): (a: ClickAction)
    ensures a == ToggleSelection <==> m.failed && !batchEmpty
    ensures a.ShowDetails? <==> m.failed && batchEmpty
    ensures a.ShowDetails? ==> a.mmsTransport == m.mms
    ensures a == ShowKeyDialog <==>
      !m.failed && m.keyExchange && !m.outgoing && !m.processedKeyExchange && !m.staleKeyExchange
    ensures a == HandleApproval <==>
      !m.failed && !(m.keyExchange && !m.outgoing && !m.processedKeyExchange && !m.staleKeyExchange)
      && m.pendingSmsFallback
    ensures a == NoAction <==>
      !m.failed && !(m.keyExchange && !m.outgoing && !m.processedKeyExchange && !m.staleKeyExchange)
      && !m.pendingSmsFallback
  {
    if m.failed && !batchEmpty then ToggleSelection
    else if m.failed then ShowDetails(m.mms)
    else if m.keyExchange && !m.outgoing && !m.processedKeyExchange && !m.staleKeyExchange then ShowKeyDialog
    else if m.pendingSmsFallback then HandleApproval
    else NoAction
  }

  /**
   * An item made clickable as a pending fallback reacts to a click: it is
   * failed (selection or details), an unprocessed key exchange, or it asks
   * for approval.
   */
  lemma {:induction false} ClickableFallbackReacts(m: MessageRecord)
    requires Clickable(true, m) && m.pendingSmsFallback
    ensures OnClick(true, m) != NoAction
    ensures OnClick(true, m) == HandleApproval <==>
      !m.failed && !(m.keyExchange && !m.outgoing && !m.processedKeyExchange && !m.staleKeyExchange)
  {
  }

  /** A click on a message that is neither failed, a key exchange nor a pending fallback does nothing. */
  lemma {:induction false} PlainMessageIgnoresClick(batchEmpty: bool, m: MessageRecord)
    requires !m.failed && !m.keyExchange && !m.pendingSmsFallback
    ensures OnClick(batchEmpty, m) == NoAction && !Clickable(batchEmpty, m)
  {
  }

  // ---------------------------------------------------------------------
  // Approving or declining a pending SMS fallback

  datatype DialogTitle = Untitled | ApproveUnencryptedMms | ApproveUnencryptedSms
  datatype ApprovalDialog = ApprovalDialog(title: DialogTitle, explained: bool)

  /**
   * The dialog `handleMessageApproval` opens: a pending secure fallback
   * gets no title (`-1`) and no message; otherwise the title names the
   * transport and the message explains the unencrypted send.
   */
  function ApprovalDialogFor(m: MessageRecord): (d: ApprovalDialog)
    ensures d.explained <==> d.title != Untitled
    ensures d.title == Untitled <==> m.pendingSecureSmsFallback
    ensures d.title == ApproveUnencryptedMms ==> m.mms
    ensures d.title == ApproveUnencryptedSms ==> !m.mms
  {
    if m.pendingSecureSmsFallback then ApprovalDialog(Untitled, false)
    else ApprovalDialog(if m.mms then ApproveUnencryptedMms else ApproveUnencryptedSms, true)
  }

  datatype Box = PendingFallbackBox | Outbox | SentFailedBox

  /** The stored type of one message: its box and its insecure and forced-SMS marks. */
  datatype Row = Row(box: Box, insecure: bool, forcedSms: bool)

  datatype Job = MmsSendJob(messageId: int) | SmsSendJob(messageId: int, number: string)

  /** The row of `id`, if the table has one, rewritten by `f`; an update of a missing row changes nothing. */
  function UpdateRow(rows: map<int, Row>, id: int, f: Row -> Row): (r: map<int, Row>)
    ensures r.Keys == rows.Keys
    ensures forall k :: k in rows && k != id ==> r[k] == rows[k]
    ensures id in rows ==> r[id] == f(rows[id])
  {
    if id in rows then rows[id := f(rows[id])] else rows
  }

  function MarkInsecure(r: Row): Row { r.(insecure := true) }
  function MarkOutbox(r: Row): Row { r.(box := Outbox) }
  function MarkForcedSms(r: Row): Row { r.(forcedSms := true) }
  function MarkSentFailed(r: Row): Row { r.(box := SentFailedBox) }

  /** The row after the positive button: outbox, forced SMS, and insecure if the fallback was insecure. */
  function Approved(r: Row, m: MessageRecord): (a: Row)
    ensures a.box == Outbox && a.forcedSms
    ensures a.insecure <==> r.insecure || m.pendingInsecureSmsFallback
  {
    var r1 := if m.pendingInsecureSmsFallback then MarkInsecure(r) else r;
    MarkForcedSms(MarkOutbox(r1))
  }

  /** Approving twice is approving once. */
  lemma {:induction false} ApproveIdempotent(r: Row, m: MessageRecord)
    ensures Approved(Approved(r, m), m) == Approved(r, m)
  {
  }

  /**
   * Approval marks a message insecure exactly when its fallback was the
   * insecure one; declining leaves both marks alone.
   */
  lemma {:induction false} ApproveMarksInsecureOnlyForInsecureFallback(r: Row, m: MessageRecord)
    requires !r.insecure
    ensures Approved(r, m).insecure <==> m.pendingInsecureSmsFallback
    ensures MarkSentFailed(r).insecure == r.insecure && MarkSentFailed(r).forcedSms == r.forcedSms
  {
  }

  /** The MMS and SMS tables and the job queue the approval dialog writes to. */
  class MessageStore {
    var mmsRows: map<int, Row>
    var smsRows: map<int, Row>
    var jobs: seq<Job>

    constructor(mmsRows: map<int, Row>, smsRows: map<int, Row>)
      ensures this.mmsRows == mmsRows && this.smsRows == smsRows && jobs == []
    {
      this.mmsRows := mmsRows;
      this.smsRows := smsRows;
      jobs := [];
    }

    /**
     * The positive button: in the message's own table mark it insecure
     * (only for an insecure fallback), then outbox, then forced SMS, and
     * queue the matching send job.
     */
    method Approve(m: MessageRecord)
      modifies this
      ensures m.mms ==> mmsRows == UpdateRow(old(mmsRows), m.id, r => Approved(r, m)) && smsRows == old(smsRows)
      ensures !m.mms ==> smsRows == UpdateRow(old(smsRows), m.id, r => Approved(r, m)) && mmsRows == old(mmsRows)
      ensures jobs == old(jobs) + [if m.mms then MmsSendJob(m.id) else SmsSendJob(m.id, m.recipientNumber)]
    {
      if m.mms {
        if m.pendingInsecureSmsFallback {
          mmsRows := UpdateRow(mmsRows, m.id, MarkInsecure);
        }
        mmsRows := UpdateRow(mmsRows, m.id, MarkOutbox);
        mmsRows := UpdateRow(mmsRows, m.id, MarkForcedSms);
        jobs := jobs + [MmsSendJob(m.id)];
      } else {
        if m.pendingInsecureSmsFallback {
          smsRows := UpdateRow(smsRows, m.id, MarkInsecure);
        }
        smsRows := UpdateRow(smsRows, m.id, MarkOutbox);
        smsRows := UpdateRow(smsRows, m.id, MarkForcedSms);
        jobs := jobs + [SmsSendJob(m.id, m.recipientNumber)];
      }
    }

    /** The negative button: mark the message sent-failed in its own table; no job is queued. */
    method Decline(m: MessageRecord)
      modifies this
      ensures m.mms ==> mmsRows == UpdateRow(old(mmsRows), m.id, MarkSentFailed) && smsRows == old(smsRows)
      ensures !m.mms ==> smsRows == UpdateRow(old(smsRows), m.id, MarkSentFailed) && mmsRows == old(mmsRows)
      ensures jobs == old(jobs)
    {
      if m.mms {
        mmsRows := UpdateRow(mmsRows, m.id, MarkSentFailed);
      } else {
        smsRows := UpdateRow(smsRows, m.id, MarkSentFailed);
      }
    }
  }
}

=== FILE: JavaLang.dfy ===
/**
 * The few pieces of Java's `int` arithmetic and `String` handling that the
 * modelled code depends on: 32-bit range and wrap-around, division that
 * truncates toward zero, `Integer.parseInt`, `String.valueOf(int)` and
 * `String.split(",")`.
 */
module JavaLang {
  import opened Wrappers

  const INT_MIN: int := -0x8000_0000
  const INT_MAX: int := 0x7fff_ffff

  predicate IsInt32(x: int) {
    INT_MIN <= x <= INT_MAX
  }

  /** The value a Java `int` expression takes when the exact result is `x`. */
  function Wrap32(x: int): (r: int)
    ensures IsInt32(r)
    ensures (x - r) % 0x1_0000_0000 == 0
    ensures IsInt32(x) ==> r == x
  {
    var m := x % 0x1_0000_0000;
    if m <= INT_MAX then m else m - 0x1_0000_0000
  }

  /**
   * Java's `a / b` for a positive divisor: the quotient truncated toward
   * zero, which for a negative dividend differs from Dafny's `/`.
   */
  function Quot(a: int, b: int): (q: int)
    requires b > 0
    ensures 0 <= a ==> q == a / b
    ensures a < 0 ==> q <= 0
  {
    if a >= 0 then a / b else -((-a) / b)
  }

  /** Java's `a % b` for a positive divisor: the remainder takes the sign of `a`. */
  function Rem(a: int, b: int): (r: int)
    requires b > 0
    ensures 0 <= a ==> r == a % b
    ensures a < 0 ==> -b < r <= 0
    ensures r == a - Quot(a, b) * b
  {
    if a >= 0 then a % b else -((-a) % b)
  }

  lemma MulLeMono(a: int, b: int, c: int)
    requires a <= b && c >= 0
    ensures a * c <= b * c
  {
    assert b * c - a * c == (b - a) * c;
  }

  /** A non-negative value below `n * b` has a quotient by `b` below `n`. */
  lemma {:induction false} DivBelow(a: int, b: int, n: int)
    requires b > 0 && 0 <= a < n * b
    ensures 0 <= a / b < n
    ensures a == (a / b) * b + a % b
  {
    if a / b >= n {
      MulLeMono(n, a / b, b);
    }
  }

  // ---------------------------------------------------------------------
  // Decimal text

  predicate IsDigit(c: char) {
    '0' <= c <= '9'
  }

  function DigitValue(c: char): (d: nat)
    requires IsDigit(c)
    ensures d < 10
  {
    (c - '0') as nat
  }

  function DigitChar(d: nat): (c: char)
    requires d < 10
    ensures IsDigit(c) && DigitValue(c) == d
  {
    '0' + d as char
  }

  /** The value of a string of decimal digits, read left to right. */
  function DigitsValue(s: string): (n: nat)
    requires forall i :: 0 <= i < |s| ==> IsDigit(s[i])
  {
    if s == [] then 0 else DigitsValue(s[..|s| - 1]) * 10 + DigitValue(s[|s| - 1])
  }

  /** The shortest decimal digits of `n`. */
  function Digits(n: nat): (s: string)
    ensures |s| > 0
    ensures forall i :: 0 <= i < |s| ==> IsDigit(s[i])
  {
    if n < 10 then [DigitChar(n)] else Digits(n / 10) + [DigitChar(n % 10)]
  }

  lemma {:induction false} DigitsValueOfDigits(n: nat)
    ensures DigitsValue(Digits(n)) == n
  {
    if n >= 10 {
      var s := Digits(n);
      assert s[..|s| - 1] == Digits(n / 10);
      DigitsValueOfDigits(n / 10);
    }
  }

  /** `String.valueOf(int)`: an optional minus sign and the shortest digits. */
  function IntToString(n: int): (s: string)
    ensures |s| > 0
  {
    if n < 0 then "-" + Digits(-n) else Digits(n)
  }

  /** `String.valueOf(int)` writes only digits and a leading minus sign. */
  lemma IntToStringChars(n: int)
    ensures forall k :: 0 <= k < |IntToString(n)| ==> IntToString(n)[k] == '-' || IsDigit(IntToString(n)[k])
    ensures ',' !in IntToString(n)
  {
    var s := IntToString(n);
    if n < 0 {
      assert forall k :: 1 <= k < |s| ==> s[k] == Digits(-n)[k - 1];
    }
    assert forall k :: 0 <= k < |s| ==> s[k] != ',';
  }

  /**
   * `Integer.parseInt(s)` for ASCII text: an optional leading `-` or `+`
   * followed by at least one decimal digit, with a value inside the range of
   * `int`; anything else, `null` included, is a `NumberFormatException`.
   */
  function ParseInt(s: Option<string>): (r: Result<int>)
    ensures r.Ok? ==> IsInt32(r.value)
    ensures r.Err? ==> r.error == NumberFormatException
  {
    match s
    case None => Err(NumberFormatException)
    case Some(text) =>
      var start := if |text| > 0 && (text[0] == '-' || text[0] == '+') then 1 else 0;
      var body := text[start..];
      if |body| == 0 || exists i :: 0 <= i < |body| && !IsDigit(body[i]) then
        Err(NumberFormatException)
      else
        var magnitude: int := DigitsValue(body);
        var v: int := if start == 1 && text[0] == '-' then -magnitude else magnitude;
        if IsInt32(v) then Ok(v) else Err(NumberFormatException)
  }

  /** Every `int` printed by `String.valueOf` parses back to itself. */
  lemma {:induction false} ParseIntOfIntToString(n: int)
    requires IsInt32(n)
    ensures ParseInt(Some(IntToString(n))) == Ok(n)
  {
    var s := IntToString(n);
    if n < 0 {
      DigitsValueOfDigits(-n);
      assert s[1..] == Digits(-n);
    } else {
      DigitsValueOfDigits(n);
      assert s[0] != '-' && s[0] != '+';
      assert s[0..] == s;
    }
  }

  lemma {:induction false} ParseIntRejectsEmpty()
    ensures ParseInt(Some("")) == Err(NumberFormatException)
    ensures ParseInt(Some("-")) == Err(NumberFormatException)
    ensures ParseInt(None) == Err(NumberFormatException)
  {
    assert "-"[1..] == "";
  }

  // ---------------------------------------------------------------------
  // String.split(",")

  /** Every piece between commas, the empty ones included. */
  function Pieces(s: string): (ps: seq<string>)
    ensures |ps| >= 1
    ensures forall k :: 0 <= k < |ps| ==> ',' !in ps[k]
  {
    if s == [] then [""]
    else
      var rest := Pieces(s[1..]);
      if s[0] == ',' then [""] + rest
      else [[s[0]] + rest[0]] + rest[1..]
  }

  /** Pieces glued back together with commas. */
  function Join(ps: seq<string>): (s: string)
    requires |ps| >= 1
  {
    if |ps| == 1 then ps[0] else ps[0] + "," + Join(ps[1..])
  }

  function DropTrailingEmpty(ps: seq<string>): (r: seq<string>)
    ensures |r| <= |ps| && r == ps[..|r|]
    ensures r == [] || r[|r| - 1] != ""
    ensures forall k :: |r| <= k < |ps| ==> ps[k] == ""
  {
    if ps == [] || ps[|ps| - 1] != "" then ps else DropTrailingEmpty(ps[..|ps| - 1])
  }

  /**
   * `s.split(",")`: a string without commas gives itself as the only
   * element; otherwise the pieces between commas, with the empty pieces at
   * the end removed.
   */
  function Split(s: string): (r: seq<string>)
    ensures forall k :: 0 <= k < |r| ==> ',' !in r[k]
  {
    if ',' !in s then [s] else DropTrailingEmpty(Pieces(s))
  }

  lemma {:induction false} JoinPieces(s: string)
    ensures Join(Pieces(s)) == s
  {
    if s != [] {
      JoinPieces(s[1..]);
      var rest := Pieces(s[1..]);
      if s[0] == ',' {
        assert Pieces(s) == [""] + rest;
        assert Pieces(s)[1..] == rest;
      } else {
        var ps := Pieces(s);
        assert ps[1..] == rest[1..];
        if |rest| == 1 {
          assert ps == [[s[0]] + rest[0]];
        } else {
          assert Join(ps) == [s[0]] + rest[0] + "," + Join(rest[1..]);
        }
      }
    }
  }

  lemma {:induction false} PiecesOfJoin(ps: seq<string>)
    requires |ps| >= 1
    requires forall k :: 0 <= k < |ps| ==> ',' !in ps[k]
    ensures Pieces(Join(ps)) == ps
  {
    if |ps| == 1 {
      PiecesWithoutComma(ps[0]);
    } else {
      PiecesOfJoin(ps[1..]);
      PiecesPrefix(ps[0], Join(ps[1..]));
      assert [ps[0]] + ps[1..] == ps;
    }
  }

  lemma {:induction false} PiecesWithoutComma(w: string)
    requires ',' !in w
    ensures Pieces(w) == [w]
  {
    if w != [] {
      PiecesWithoutComma(w[1..]);
      assert [w[0]] + w[1..] == w;
    }
  }

  lemma {:induction false} PiecesPrefix(w: string, t: string)
    requires ',' !in w
    ensures Pieces(w + "," + t) == [w] + Pieces(t)
  {
    if w == [] {
      assert w + "," + t == [','] + t;
      assert (w + "," + t)[1..] == t;
    } else {
      PiecesPrefix(w[1..], t);
      assert (w + "," + t)[1..] == w[1..] + "," + t;
      assert [w[0]] + w[1..] == w;
    }
  }

  lemma {:induction false} CommaInJoin(ps: seq<string>)
    requires |ps| >= 2
    ensures ',' in Join(ps)
  {
    assert Join(ps) == ps[0] + "," + Join(ps[1..]);
    assert Join(ps)[|ps[0]|] == ',';
  }

  /**
   * Splitting undoes joining whenever no piece holds a comma and the last
   * piece is not empty (the pieces `split` would otherwise drop).
   */
  lemma SplitJoin(ps: seq<string>)
    requires |ps| >= 1
    requires forall k :: 0 <= k < |ps| ==> ',' !in ps[k]
    requires |ps| == 1 || ps[|ps| - 1] != ""
    ensures Split(Join(ps)) == ps
  {
    if |ps| >= 2 {
      CommaInJoin(ps);
      PiecesOfJoin(ps);
    }
  }
}

=== FILE: MessageNotifier.dfy ===
/**
 * The decisions of SMSSecure's `MessageNotifier`: how the LED blink pattern
 * is parsed, which sound, vibration and lights a notification gets, which
 * unread messages make it into the notification and with what text, when a
 * reminder is scheduled, and what each `updateNotification` entry point does.
 *
 * Android's notification, alarm and media services are replaced by the
 * fields of `Notifier` that record their observable effect: the message
 * notification on screen, the pending reminder alarm, the threads marked
 * read, the in-thread sounds played and the delivery-failure notifications.
 * Preferences arrive as a `Settings` value holding what the
 * `SMSSecurePreferences` getters answer.
 */
module MessageNotifier {
  import opened Wrappers
  import opened JavaLang

  const NOTIFICATION_ID: int := 1338

  /** The LED pattern preference value that selects the custom pattern. */
  const CUSTOM_PATTERN: string := "custom"

  /** The LED colour preference value that turns the lights off. */
  const NO_LED: string := "none"

  // ---------------------------------------------------------------------
  // parseBlinkPattern

  /** `parseBlinkPattern`: the custom pattern when "custom" is selected, split at commas. */
  function ParseBlinkPattern(blinkPattern: string, blinkPatternCustom: string): (parts: seq<string>)
    ensures blinkPattern == CUSTOM_PATTERN ==> parts == Split(blinkPatternCustom)
    ensures blinkPattern != CUSTOM_PATTERN ==> parts == Split(blinkPattern)
  {
    var pattern := if blinkPattern == CUSTOM_PATTERN then blinkPatternCustom else blinkPattern;
    Split(pattern)
  }

  /** The text of an "on,off" blink pattern. */
  function BlinkPatternText(onMs: int, offMs: int): string {
    IntToString(onMs) + "," + IntToString(offMs)
  }

  /** An "on,off" pattern splits back into its two numbers' text. */
  lemma {:induction false} BlinkPatternRoundTrip(onMs: int, offMs: int, custom: string)
    ensures ParseBlinkPattern(BlinkPatternText(onMs, offMs), custom) == [IntToString(onMs), IntToString(offMs)]
    ensures ParseBlinkPattern(CUSTOM_PATTERN, BlinkPatternText(onMs, offMs)) == [IntToString(onMs), IntToString(offMs)]
  {
    var a, b := IntToString(onMs), IntToString(offMs);
    IntToStringChars(onMs);
    IntToStringChars(offMs);
    var ps := [a, b];
    assert Join(ps) == a + "," + b by {
      assert ps[1..] == [b];
    }
    SplitJoin(ps);
    assert BlinkPatternText(onMs, offMs) != CUSTOM_PATTERN by {
      assert BlinkPatternText(onMs, offMs)[0] == a[0];
    }
  }

  // ---------------------------------------------------------------------
  // setNotificationAlarms

  datatype VibrateState = Default | Enabled | Disabled

  datatype Sound = Silent | Ringtone(uri: string)

  datatype Lights = Lights(argb: int, onMs: int, offMs: int)

  /** What `setNotificationAlarms` sets on the notification. */
  datatype Alarms = Alarms(sound: Sound, vibrate: bool, lights: Option<Lights>)

  /** The notification preferences, as the `SMSSecurePreferences` getters answer them. */
  datatype Settings = Settings(
    notificationsEnabled: bool,
    inThreadNotifications: bool,
    showSentTime: bool,
    ringtone: Option<string>,
    vibrate: bool,
    ledColor: string,
    ledPattern: string,
    ledPatternCustom: string,
    repeatAlertsCount: int)

  /** `TextUtils.isEmpty` on a possibly absent string. */
  predicate IsEmptyText(s: Option<string>) {
    s.None? || |s.value| == 0
  }

  /**
   * `setNotificationAlarms`: a sound only when `signal` holds (the
   * recipients' ringtone, else a non-empty default ringtone), vibration only
   * when `signal` holds and the recipients ask for it or leave it to the
   * default, and lights unless the LED colour is "none".  The lights' colour
   * comes from `parseColor` (Android's `Color.parseColor`, absent for a
   * colour it rejects) and the blink times from the pattern's first two
   * pieces; a missing piece or a number that does not parse is the
   * exception Java throws there.
   */
  function AlarmsFor(s: Settings, signal: bool, ringtone: Option<string>, vibrate: VibrateState,
                     parseColor: string -> Option<int>): (r: Result<Alarms>)
    ensures r.Err? ==> s.ledColor != NO_LED
    ensures s.ledColor == NO_LED ==> r.Ok? && r.value.lights.None?
    ensures r.Ok? && s.ledColor != NO_LED ==> r.value.lights.Some?
    ensures r.Ok? && r.value.sound.Ringtone? ==> signal
    ensures r.Ok? && signal && ringtone.Some? ==> r.value.sound == Ringtone(ringtone.value)
    ensures r.Ok? && signal && ringtone.None? && !IsEmptyText(s.ringtone) ==> r.value.sound == Ringtone(s.ringtone.value)
    ensures r.Ok? && (!signal || (ringtone.None? && IsEmptyText(s.ringtone))) ==> r.value.sound == Silent
    ensures r.Ok? ==> (r.value.vibrate <==> signal && (vibrate == Enabled || (vibrate == Default && s.vibrate)))
    ensures r.Err? ==> r.error in {IllegalArgumentException, ArrayIndexOutOfBoundsException, NumberFormatException}
  {
    var blinkPatternArray := ParseBlinkPattern(s.ledPattern, s.ledPatternCustom);
    var sound :=
      if signal && ringtone.Some? then Ringtone(ringtone.value)
      else if signal && !IsEmptyText(s.ringtone) then Ringtone(s.ringtone.value)
      else Silent;
    var vibrates := signal && (vibrate == Enabled || (vibrate == Default && s.vibrate));
    if s.ledColor == NO_LED then Ok(Alarms(sound, vibrates, None))
    else
      // the arguments of `setLights`, evaluated left to right
      match parseColor(s.ledColor)
      case None => Err(IllegalArgumentException)
      case Some(argb) =>
        if |blinkPatternArray| < 1 then Err(ArrayIndexOutOfBoundsException)
        else match ParseInt(Some(blinkPatternArray[0]))
        case Err(e) => Err(e)
        case Ok(onMs) =>
          if |blinkPatternArray| < 2 then Err(ArrayIndexOutOfBoundsException)
          else match ParseInt(Some(blinkPatternArray[1]))
          case Err(e) => Err(e)
          case Ok(offMs) => Ok(Alarms(sound, vibrates, Some(Lights(argb, onMs, offMs))))
  }

  /** A well-formed "on,off" pattern blinks the LED for exactly those times. */
  lemma {:induction false} PatternDrivesLights(s: Settings, signal: bool, ringtone: Option<string>,
                                               vibrate: VibrateState, parseColor: string -> Option<int>,
                                               onMs: int, offMs: int)
    requires IsInt32(onMs) && IsInt32(offMs)
    requires s.ledColor != NO_LED && parseColor(s.ledColor).Some?
    requires s.ledPattern == BlinkPatternText(onMs, offMs)
          || (s.ledPattern == CUSTOM_PATTERN && s.ledPatternCustom == BlinkPatternText(onMs, offMs))
    ensures AlarmsFor(s, signal, ringtone, vibrate, parseColor).Ok?
    ensures AlarmsFor(s, signal, ringtone, vibrate, parseColor).value.lights == Some(Lights(parseColor(s.ledColor).value, onMs, offMs))
  {
    BlinkPatternRoundTrip(onMs, offMs, s.ledPatternCustom);
    ParseIntOfIntToString(onMs);
    ParseIntOfIntToString(offMs);
  }

  /** A pattern without a comma has no second piece: lights then fail on the missing off time. */
  lemma {:induction false} SinglePieceFails(s: Settings, signal: bool, ringtone: Option<string>,
                                            vibrate: VibrateState, parseColor: string -> Option<int>, onMs: int)
    requires IsInt32(onMs)
    requires s.ledColor != NO_LED && parseColor(s.ledColor).Some?
    requires s.ledPattern == IntToString(onMs)
    ensures AlarmsFor(s, signal, ringtone, vibrate, parseColor) == Err(ArrayIndexOutOfBoundsException)
  {
    IntToStringChars(onMs);
    assert s.ledPattern != CUSTOM_PATTERN by {
      assert s.ledPattern[0] != CUSTOM_PATTERN[0];
    }
    ParseIntOfIntToString(onMs);
  }

  // ---------------------------------------------------------------------
  // constructNotificationState

  /** An unread message as the database reader yields it. */
  datatype Record = Record(
    threadId: int,
    sender: string,
    dateSent: int,
    dateReceived: int,
    decryptInProgress: bool,
    plaintext: bool,
    mms: bool,
    mmsNotification: bool,
    displayBody: string)

  /** What the thread database knows of a thread's recipients. */
  datatype ThreadRecipients = ThreadRecipients(muted: bool, ringtone: Option<string>, vibrate: VibrateState)

  datatype Body =
    | EncryptedMessage
    | MediaMessage
    | MediaMessageWithText(message: string, italicLength: int)
    | PlainBody(text: string)

  datatype NotificationItem = NotificationItem(sender: string, threadId: int, body: Body, timestamp: int)

  /**
   * The body a notification shows for a record: a placeholder for a message
   * still encrypted, a placeholder for an MMS without text, the localised
   * "media message" prefix followed by the text (only the prefix in
   * italics) for a downloaded MMS, and the text itself otherwise.
   */
  function ClassifyBody(r: Record, mediaPrefix: string): (b: Body)
    ensures b == EncryptedMessage <==> r.decryptInProgress || !r.plaintext
    ensures b == MediaMessage <==> !r.decryptInProgress && r.plaintext && r.mms && |r.displayBody| == 0
    ensures b.MediaMessageWithText? ==> r.mms && !r.mmsNotification
    ensures b.MediaMessageWithText? ==>
      0 <= b.italicLength <= |b.message|
      && b.message[..b.italicLength] == mediaPrefix && b.message[b.italicLength..] == r.displayBody
    ensures b.PlainBody? ==> b.text == r.displayBody && (!r.mms || r.mmsNotification)
  {
    if r.decryptInProgress || !r.plaintext then EncryptedMessage
    else if r.mms && |r.displayBody| == 0 then MediaMessage
    else if r.mms && !r.mmsNotification then
      var message := mediaPrefix + r.displayBody;
      var italicLength := |message| - |r.displayBody|;
      MediaMessageWithText(message, italicLength)
    else PlainBody(r.displayBody)
  }

  /** A record is notified unless its thread's recipients are known and muted. */
  predicate Kept(r: Record, threads: int -> Option<ThreadRecipients>) {
    var threadRecipients := if r.threadId != -1 then threads(r.threadId) else None;
    threadRecipients.None? || !threadRecipients.value.muted
  }

  function ItemFor(r: Record, showSentTime: bool, mediaPrefix: string): (item: NotificationItem)
    ensures item.threadId == r.threadId && item.sender == r.sender
    ensures item.timestamp == (if showSentTime then r.dateSent else r.dateReceived)
  {
    var timestamp := if showSentTime then r.dateSent else r.dateReceived;
    NotificationItem(r.sender, r.threadId, ClassifyBody(r, mediaPrefix), timestamp)
  }

  /** The notification items for `records`, in reading order. */
  function NotificationsOf(records: seq<Record>, threads: int -> Option<ThreadRecipients>,
                           showSentTime: bool, mediaPrefix: string): (items: seq<NotificationItem>)
    ensures |items| <= |records|
  {
    if records == [] then []
    else
      var last := records[|records| - 1];
      NotificationsOf(records[..|records| - 1], threads, showSentTime, mediaPrefix)
      + (if Kept(last, threads) then [ItemFor(last, showSentTime, mediaPrefix)] else [])
  }

  /** Every item comes from a record of an unmuted thread. */
  lemma {:induction false} NotificationsFromKept(records: seq<Record>, threads: int -> Option<ThreadRecipients>,
                                                 showSentTime: bool, mediaPrefix: string, n: int)
    requires 0 <= n < |NotificationsOf(records, threads, showSentTime, mediaPrefix)|
    ensures exists k :: (0 <= k < |records| && Kept(records[k], threads)
      && NotificationsOf(records, threads, showSentTime, mediaPrefix)[n] == ItemFor(records[k], showSentTime, mediaPrefix))
  {
    var front := records[..|records| - 1];
    var prefix := NotificationsOf(front, threads, showSentTime, mediaPrefix);
    if n < |prefix| {
      NotificationsFromKept(front, threads, showSentTime, mediaPrefix, n);
      var k :| 0 <= k < |front| && Kept(front[k], threads)
        && prefix[n] == ItemFor(front[k], showSentTime, mediaPrefix);
      assert records[k] == front[k];
    } else {
      assert Kept(records[|records| - 1], threads);
    }
  }

  /** Every record of an unmuted thread has its item. */
  lemma {:induction false} KeptRecordsNotified(records: seq<Record>, threads: int -> Option<ThreadRecipients>,
                                               showSentTime: bool, mediaPrefix: string, k: int)
    requires 0 <= k < |records| && Kept(records[k], threads)
    ensures ItemFor(records[k], showSentTime, mediaPrefix) in NotificationsOf(records, threads, showSentTime, mediaPrefix)
  {
    var front := records[..|records| - 1];
    if k < |front| {
      KeptRecordsNotified(front, threads, showSentTime, mediaPrefix, k);
      assert records[k] == front[k];
    }
  }

  /** With no muted thread among them, every record is notified. */
  lemma {:induction false} NothingMutedKeepsAll(records: seq<Record>, threads: int -> Option<ThreadRecipients>,
                                                showSentTime: bool, mediaPrefix: string)
    requires forall k :: 0 <= k < |records| ==> Kept(records[k], threads)
    ensures |NotificationsOf(records, threads, showSentTime, mediaPrefix)| == |records|
  {
    if records != [] {
      var front := records[..|records| - 1];
      assert forall k :: 0 <= k < |front| ==> front[k] == records[k];
      NothingMutedKeepsAll(front, threads, showSentTime, mediaPrefix);
    }
  }

  /**
   * `constructNotificationState`: read the unread records one by one and
   * add an item for each whose thread is not muted.
   */
  method ConstructNotificationState(records: seq<Record>, threads: int -> Option<ThreadRecipients>,
                                    showSentTime: bool, mediaPrefix: string)
    returns (items: seq<NotificationItem>)
    ensures items == NotificationsOf(records, threads, showSentTime, mediaPrefix)
  {
    items := [];
    var next := 0;
    while next < |records|
      invariant 0 <= next <= |records|
      invariant items == NotificationsOf(records[..next], threads, showSentTime, mediaPrefix)
    {
      var record := records[next];
      var timestamp;
      if showSentTime {
        timestamp := record.dateSent;
      } else {
        timestamp := record.dateReceived;
      }
      var threadRecipients: Option<ThreadRecipients> := None;
      if record.threadId != -1 {
        threadRecipients := threads(record.threadId);
      }
      var body := ClassifyBody(record, mediaPrefix);
      if threadRecipients.None? || !threadRecipients.value.muted {
        items := items + [NotificationItem(record.sender, record.threadId, body, timestamp)];
      }
      assert records[..next + 1][..next] == records[..next];
      next := next + 1;
    }
    assert records[..next] == records;
  }

  /** The threads the items belong to. */
  function ThreadsOf(items: seq<NotificationItem>): (threads: set<int>)
    ensures forall k :: 0 <= k < |items| ==> items[k].threadId in threads
    ensures forall t :: t in threads ==> exists k :: 0 <= k < |items| && items[k].threadId == t
    ensures |threads| <= |items|
  {
    if items == [] then {}
    else
      var rest := ThreadsOf(items[1..]);
      assert forall k :: 1 <= k < |items| ==> items[k] == items[1..][k - 1];
      {items[0].threadId} + rest
  }

  // ---------------------------------------------------------------------
  // Reminders

  /** `scheduleReminder`: the reminder count the alarm carries, or nothing once the count reached the limit. */
  function ReminderFor(count: int, repeatAlertsCount: int): (r: Option<int>)
    ensures r.Some? <==> count < repeatAlertsCount
    ensures r.Some? ==> r.value == count
  {
    if count >= repeatAlertsCount then None else Some(count)
  }

  /**
   * The counts a chain of reminders carries when each alarm's receiver
   * updates the notification with the count plus one, starting from `count`.
   */
  function ReminderChain(count: int, repeatAlertsCount: int): (chain: seq<int>)
    decreases repeatAlertsCount - count
  {
    match ReminderFor(count, repeatAlertsCount)
    case None => []
    case Some(c) => [c] + ReminderChain(count + 1, repeatAlertsCount)
  }

  /** A chain started at 0 fires exactly `repeatAlertsCount` times, with counts 0, 1, 2, ... */
  lemma {:induction false} ReminderChainBounded(count: int, repeatAlertsCount: int)
    requires count <= repeatAlertsCount
    ensures |ReminderChain(count, repeatAlertsCount)| == repeatAlertsCount - count
    ensures forall k :: 0 <= k < |ReminderChain(count, repeatAlertsCount)| ==>
      ReminderChain(count, repeatAlertsCount)[k] == count + k
    decreases repeatAlertsCount - count
  {
    if count < repeatAlertsCount {
      ReminderChainBounded(count + 1, repeatAlertsCount);
    }
  }

  // ---------------------------------------------------------------------
  // The notifier

  /** The message notification's content. */
  datatype Shown = Shown(multipleThreads: bool, items: seq<NotificationItem>, alarms: Alarms, ticker: bool)

  /** A notification on screen: the message notification or a delivery-failure notice for a thread. */
  datatype Posted = Messages(content: Shown) | DeliveryFailure(threadId: int)

  /** The unread messages and the thread database. */
  datatype Database = Database(unread: seq<Record>, threads: int -> Option<ThreadRecipients>)

  /**
   * `MessageNotifier`'s static state (`visibleThread`) together with the
   * effects of its calls on the platform services.
   */
  class Notifier {
    var visibleThread: int
    /**
     * The notifications on screen by notification id: the message
     * notification under `NOTIFICATION_ID`, a failure notice under its
     * thread id narrowed to `int`; a later post under the same id replaces
     * the earlier one, whichever kind it is.
     */
    var posted: map<int, Posted>
    /** The reminder count of the pending reminder alarm, if one is set. */
    var reminder: Option<int>
    var readThreads: set<int>
    var played: seq<string>

    constructor()
      ensures visibleThread == -1 && posted == map[] && reminder == None
      ensures readThreads == {} && played == []
    {
      visibleThread := -1;
      posted := map[];
      reminder := None;
      readThreads := {};
      played := [];
    }

    method SetVisibleThread(threadId: int)
      modifies this
      ensures visibleThread == threadId
      ensures posted == old(posted) && reminder == old(reminder) && readThreads == old(readThreads)
      ensures played == old(played)
    {
      visibleThread := threadId;
    }

    /**
     * `sendInThreadNotification`: with in-thread notifications on, play the
     * recipients' ringtone or else the default one; nothing when neither is set.
     */
    method SendInThreadNotification(s: Settings, recipients: Option<ThreadRecipients>)
      modifies this
      ensures played == old(played) + InThreadSound(s, recipients)
      ensures visibleThread == old(visibleThread) && posted == old(posted) && reminder == old(reminder)
      ensures readThreads == old(readThreads)
    {
      if !s.inThreadNotifications {
        return;
      }
      var uri := if recipients.Some? then recipients.value.ringtone else None;
      if uri.None? {
        if s.ringtone.None? {
          return;
        }
        uri := s.ringtone;
      }
      played := played + [uri.value];
    }

    /** `scheduleReminder`: set the reminder alarm unless the count reached the limit. */
    method ScheduleReminder(s: Settings, count: int)
      modifies this
      ensures reminder == if count < s.repeatAlertsCount then Some(count) else old(reminder)
      ensures visibleThread == old(visibleThread) && posted == old(posted) && readThreads == old(readThreads)
      ensures played == old(played)
    {
      if count >= s.repeatAlertsCount {
        return;
      }
      reminder := Some(count);
    }

    /**
     * `sendSingleThreadNotification` and `sendMultipleThreadNotification`:
     * cancel the notification when there is nothing to show, otherwise post
     * the items with the alarms; an exception from the alarms posts nothing.
     */
    method SendNotification(items: seq<NotificationItem>, multiple: bool, signal: bool, alarms: Result<Alarms>)
      returns (r: Result<()>)
      requires multiple ==> items != []
      modifies this
      ensures r.Err? <==> items != [] && alarms.Err?
      ensures r.Err? ==> r.error == alarms.error && posted == old(posted)
      ensures r.Ok? ==> posted == PostedMessages(old(posted), items, multiple, alarms, signal)
      ensures visibleThread == old(visibleThread) && reminder == old(reminder) && readThreads == old(readThreads)
      ensures played == old(played)
    {
      if !multiple && items == [] {
        posted := posted - {NOTIFICATION_ID};
        return Ok(());
      }
      if alarms.Err? {
        return Err(alarms.error);
      }
      posted := posted[NOTIFICATION_ID := Messages(Shown(multiple, items, alarms.value, signal))];
      r := Ok(());
    }

    /**
     * The private `updateNotification(signal, reminderCount)`: with no
     * unread message, cancel the notification and the reminder; otherwise
     * post the single- or multiple-thread notification (cancelling it when
     * every unread thread is muted) and schedule the next reminder.  An
     * exception from the alarms leaves the notification and the reminder as
     * they were.
     */
    method Update(s: Settings, db: Database, signal: bool, reminderCount: int,
                  stateRingtone: Option<string>, stateVibrate: VibrateState,
                  parseColor: string -> Option<int>, mediaPrefix: string)
      returns (r: Result<()>)
      modifies this
      ensures visibleThread == old(visibleThread) && readThreads == old(readThreads) && played == old(played)
      ensures db.unread == [] ==> r.Ok? && posted == old(posted) - {NOTIFICATION_ID} && reminder == None
      ensures db.unread != [] ==> UpdatePosts(this, old(posted), old(reminder), r, s, db, signal, reminderCount,
                                              AlarmsFor(s, signal, stateRingtone, stateVibrate, parseColor), mediaPrefix)
    {
      if db.unread == [] {
        posted := posted - {NOTIFICATION_ID};
        reminder := None;
        return Ok(());
      }
      var items := ConstructNotificationState(db.unread, db.threads, s.showSentTime, mediaPrefix);
      var multiple := |ThreadsOf(items)| > 1;
      var alarms := AlarmsFor(s, signal, stateRingtone, stateVibrate, parseColor);
      r := SendNotification(items, multiple, signal, alarms);
      if r.Err? {
        return;
      }
      ScheduleReminder(s, reminderCount);
    }

    /** The public `updateNotification()`: nothing when notifications are off, else a silent update. */
    method UpdateNotification(s: Settings, db: Database, stateRingtone: Option<string>, stateVibrate: VibrateState,
                              parseColor: string -> Option<int>, mediaPrefix: string)
      returns (r: Result<()>)
      modifies this
      ensures !s.notificationsEnabled ==> r.Ok? && posted == old(posted) && reminder == old(reminder)
      ensures s.notificationsEnabled && db.unread == [] ==>
        r.Ok? && posted == old(posted) - {NOTIFICATION_ID} && reminder == None
      ensures s.notificationsEnabled && db.unread != [] ==>
        UpdatePosts(this, old(posted), old(reminder), r, s, db, false, 0,
                    AlarmsFor(s, false, stateRingtone, stateVibrate, parseColor), mediaPrefix)
      ensures visibleThread == old(visibleThread) && readThreads == old(readThreads) && played == old(played)
    {
      if !s.notificationsEnabled {
        return Ok(());
      }
      r := Update(s, db, false, 0, stateRingtone, stateVibrate, parseColor, mediaPrefix);
    }

    /**
     * `updateNotification(threadId)`: nothing when notifications are off or
     * the thread is muted; for the thread on screen, mark it read and play
     * the in-thread sound instead of notifying; otherwise a signalling update.
     */
    method UpdateNotificationForThread(s: Settings, db: Database, threadId: int,
                                       stateRingtone: Option<string>, stateVibrate: VibrateState,
                                       parseColor: string -> Option<int>, mediaPrefix: string)
      returns (r: Result<()>)
      modifies this
      ensures !s.notificationsEnabled || ThreadMuted(db, threadId) ==>
        r.Ok? && posted == old(posted) && reminder == old(reminder)
        && readThreads == old(readThreads) && played == old(played)
      ensures s.notificationsEnabled && !ThreadMuted(db, threadId) && old(visibleThread) == threadId ==>
        r.Ok? && readThreads == old(readThreads) + {threadId}
        && played == old(played) + InThreadSound(s, db.threads(threadId))
        && posted == old(posted) && reminder == old(reminder)
      ensures s.notificationsEnabled && !ThreadMuted(db, threadId) && old(visibleThread) != threadId ==>
        && readThreads == old(readThreads) && played == old(played)
        && (db.unread == [] ==> r.Ok? && posted == old(posted) - {NOTIFICATION_ID} && reminder == None)
        && (db.unread != [] ==> UpdatePosts(this, old(posted), old(reminder), r, s, db, true, 0,
                                            AlarmsFor(s, true, stateRingtone, stateVibrate, parseColor), mediaPrefix))
      ensures visibleThread == old(visibleThread)
    {
      var recipients := db.threads(threadId);
      if !s.notificationsEnabled || (recipients.Some? && recipients.value.muted) {
        return Ok(());
      }
      if visibleThread == threadId {
        readThreads := readThreads + {threadId};
        SendInThreadNotification(s, db.threads(threadId));
        return Ok(());
      }
      r := Update(s, db, true, 0, stateRingtone, stateVibrate, parseColor, mediaPrefix);
    }

    /**
     * `ReminderReceiver.onReceive`: the one-shot alarm that fired is no
     * longer pending; a signalling update one reminder further along the
     * chain sets the next one, if any.
     */
    method OnReminder(s: Settings, db: Database, reminderCount: int,
                      stateRingtone: Option<string>, stateVibrate: VibrateState,
                      parseColor: string -> Option<int>, mediaPrefix: string)
      returns (r: Result<()>)
      modifies this
      ensures db.unread == [] ==> r.Ok? && posted == old(posted) - {NOTIFICATION_ID} && reminder == None
      ensures db.unread != [] ==> UpdatePosts(this, old(posted), None, r, s, db, true, Wrap32(reminderCount + 1),
                                              AlarmsFor(s, true, stateRingtone, stateVibrate, parseColor), mediaPrefix)
      ensures r.Err? || Wrap32(reminderCount + 1) >= s.repeatAlertsCount ==> reminder == None
      ensures reminder.Some? ==> reminder == Some(Wrap32(reminderCount + 1))
      ensures visibleThread == old(visibleThread) && readThreads == old(readThreads) && played == old(played)
    {
      reminder := None;
      r := Update(s, db, true, Wrap32(reminderCount + 1), stateRingtone, stateVibrate, parseColor, mediaPrefix);
    }

    /** `DeleteReceiver.onReceive`: dismissing the notification cancels the reminder. */
    method OnDelete()
      modifies this
      ensures reminder == None
      ensures visibleThread == old(visibleThread) && posted == old(posted) && readThreads == old(readThreads)
      ensures played == old(played)
    {
      reminder := None;
    }

    /**
     * `notifyMessageDeliveryFailed`: the in-thread sound for the thread on
     * screen; otherwise a signalling notice posted under the thread id
     * narrowed to an `int`, which replaces whatever was posted under that
     * id.  Reading the ids of absent recipients is a `NullPointerException`.
     */
    method NotifyMessageDeliveryFailed(s: Settings, recipients: Option<ThreadRecipients>, threadId: int,
                                       parseColor: string -> Option<int>)
      returns (r: Result<()>)
      modifies this
      ensures old(visibleThread) == threadId ==>
        r.Ok? && played == old(played) + InThreadSound(s, recipients) && posted == old(posted)
      ensures old(visibleThread) != threadId ==>
        && played == old(played)
        && (recipients.None? ==> r == Err(NullPointerException))
        && (recipients.Some? ==> r == FailureNoticeAlarms(s, parseColor))
        && posted == if r.Ok? then old(posted)[Wrap32(threadId) := DeliveryFailure(threadId)] else old(posted)
      ensures visibleThread == old(visibleThread) && reminder == old(reminder)
      ensures readThreads == old(readThreads)
    {
      if visibleThread == threadId {
        SendInThreadNotification(s, recipients);
        return Ok(());
      }
      if recipients.None? {
        return Err(NullPointerException);
      }
      var alarms := AlarmsFor(s, true, None, Default, parseColor);
      if alarms.Err? {
        return Err(alarms.error);
      }
      posted := posted[Wrap32(threadId) := DeliveryFailure(threadId)];
      r := Ok(());
    }
  }

  /** What posting the message notification does to the notifications on screen. */
  function PostedMessages(posted: map<int, Posted>, items: seq<NotificationItem>, multiple: bool,
                          alarms: Result<Alarms>, signal: bool): (posted': map<int, Posted>)
    requires items != [] ==> alarms.Ok?
    ensures forall id :: id != NOTIFICATION_ID ==> (id in posted' <==> id in posted)
    ensures forall id :: id != NOTIFICATION_ID && id in posted ==> posted'[id] == posted[id]
    ensures items == [] <==> NOTIFICATION_ID !in posted'
    ensures items != [] ==> posted'[NOTIFICATION_ID] == Messages(Shown(multiple, items, alarms.value, signal))
  {
    if items == [] then posted - {NOTIFICATION_ID}
    else posted[NOTIFICATION_ID := Messages(Shown(multiple, items, alarms.value, signal))]
  }

  /** The outcome of `setNotificationAlarms` for a delivery-failure notice: signalling, default vibration. */
  function FailureNoticeAlarms(s: Settings, parseColor: string -> Option<int>): (r: Result<()>)
    ensures r.Ok? <==> AlarmsFor(s, true, None, Default, parseColor).Ok?
    ensures r.Err? ==> r.error == AlarmsFor(s, true, None, Default, parseColor).error
  {
    var alarms := AlarmsFor(s, true, None, Default, parseColor);
    if alarms.Ok? then Ok(()) else Err(alarms.error)
  }

  /**
   * A failure notice for a thread whose id narrows to `NOTIFICATION_ID`
   * takes the message notification's place, and cancelling the message
   * notification afterwards removes that notice.
   */
  lemma {:induction false} FailureNoticeSharesMessageId(posted: map<int, Posted>, threadId: int)
    requires Wrap32(threadId) == NOTIFICATION_ID
    ensures NOTIFICATION_ID in posted[Wrap32(threadId) := DeliveryFailure(threadId)]
    ensures posted[Wrap32(threadId) := DeliveryFailure(threadId)][NOTIFICATION_ID] == DeliveryFailure(threadId)
    ensures NOTIFICATION_ID !in posted[Wrap32(threadId) := DeliveryFailure(threadId)] - {NOTIFICATION_ID}
  {
  }

  /**
   * The state a signalling or silent update leaves when there are unread
   * messages: the items of the unmuted threads posted with `alarms` (or the
   * notification cancelled when there are none), then the reminder for
   * `reminderCount`; an exception from the alarms changes neither.
   */
  predicate UpdatePosts(n: Notifier, posted0: map<int, Posted>, reminder0: Option<int>, r: Result<()>,
                        s: Settings, db: Database, signal: bool, reminderCount: int,
                        alarms: Result<Alarms>, mediaPrefix: string)
    reads n
  {
    var items := NotificationsOf(db.unread, db.threads, s.showSentTime, mediaPrefix);
    && (r.Err? <==> items != [] && alarms.Err?)
    && (r.Err? ==> r.error == alarms.error && n.posted == posted0 && n.reminder == reminder0)
    && (r.Ok? ==> n.posted == PostedMessages(posted0, items, |ThreadsOf(items)| > 1, alarms, signal))
    && (r.Ok? ==> n.reminder == if reminderCount < s.repeatAlertsCount then Some(reminderCount) else reminder0)
  }

  /** The thread database lists the thread's recipients as muted. */
  predicate ThreadMuted(db: Database, threadId: int) {
    db.threads(threadId).Some? && db.threads(threadId).value.muted
  }

  /** The sound `sendInThreadNotification` plays, if any. */
  function InThreadSound(s: Settings, recipients: Option<ThreadRecipients>): (sound: seq<string>)
    ensures |sound| <= 1
    ensures !s.inThreadNotifications ==> sound == []
    ensures s.inThreadNotifications && recipients.Some? && recipients.value.ringtone.Some? ==>
      sound == [recipients.value.ringtone.value]
    ensures s.inThreadNotifications && (recipients.None? || recipients.value.ringtone.None?) ==>
      sound == (if s.ringtone.Some? then [s.ringtone.value] else [])
  {
    if !s.inThreadNotifications then []
    else
      var uri := if recipients.Some? then recipients.value.ringtone else None;
      if uri.Some? then [uri.value]
      else if s.ringtone.Some? then [s.ringtone.value]
      else []
  }
}

=== FILE: Nv21.dfy ===
/**
 * Index arithmetic of an NV21 camera frame (a full-resolution luma plane
 * followed by one interleaved chroma pair per 2x2 block of pixels) and of the
 * quarter-turn rotations applied to it.  The rotation loop itself lives in
 * module BitmapUtil; this module states where every byte goes and proves
 * that the destinations form a bijection on each plane.
 */
module Nv21 {
  import opened JavaLang

  /** Width `w` and height `h` describe an NV21 frame of `len` bytes. */
  predicate IsFrame(w: int, h: int, len: int) {
    w >= 0 && h >= 0 && w % 2 == 0 && h % 2 == 0 && len == FrameLength(w, h)
  }

  /** Luma bytes followed by half as many chroma bytes. */
  function FrameLength(w: int, h: int): int {
    w * h + (w * h) / 2
  }

  /** The three flags that `rotateNV21` derives from the rotation angle. */
  datatype Flags = Flags(swap: bool, xflip: bool, yflip: bool)

  /** The flags for a rotation that has already passed validation. */
  function RotationFlags(rotation: int): (f: Flags)
    requires rotation == 90 || rotation == 180 || rotation == 270
    ensures rotation == 90 ==> f == Flags(true, true, false)
    ensures rotation == 180 ==> f == Flags(false, true, true)
    ensures rotation == 270 ==> f == Flags(true, false, true)
  {
    Flags(rotation % 180 != 0, rotation % 270 != 0, rotation >= 180)
  }

  function OutWidth(w: int, h: int, f: Flags): int {
    if f.swap then h else w
  }

  function OutHeight(w: int, h: int, f: Flags): int {
    if f.swap then w else h
  }

  /** Column of input pixel (i, j) in the rotated frame. */
  function OutI(w: int, h: int, f: Flags, i: int, j: int): int {
    var s := if f.swap then j else i;
    if f.xflip then OutWidth(w, h, f) - s - 1 else s
  }

  /** Row of input pixel (i, j) in the rotated frame. */
  function OutJ(w: int, h: int, f: Flags, i: int, j: int): int {
    var s := if f.swap then i else j;
    if f.yflip then OutHeight(w, h, f) - s - 1 else s
  }

  /** `yIn`: luma index of pixel (i, j) in the input. */
  function YIn(w: int, i: int, j: int): int {
    j * w + i
  }

  /**
   * `uIn`: first chroma byte of pixel (i, j) in the input; `j >> 1` and
   * `i & ~1` are `j / 2` and `i - i % 2` on the non-negative coordinates.
   */
  function UIn(w: int, h: int, i: int, j: int): int {
    w * h + (j / 2) * w + (i - i % 2)
  }

  /** `yOut`: luma index that pixel (i, j) is written to. */
  function YOut(w: int, h: int, f: Flags, i: int, j: int): int {
    OutJ(w, h, f, i, j) * OutWidth(w, h, f) + OutI(w, h, f, i, j)
  }

  /** `uOut`: first chroma byte that pixel (i, j) is written to. */
  function UOut(w: int, h: int, f: Flags, i: int, j: int): int {
    var io := OutI(w, h, f, i, j);
    w * h + (OutJ(w, h, f, i, j) / 2) * OutWidth(w, h, f) + (io - io % 2)
  }

  /**
   * Which chroma pair of the rotated frame pixel (i, j) writes, counted
   * row by row: half its row times half the width, plus half its column.
   */
  function ChromaPair(w: int, h: int, f: Flags, i: int, j: int): int {
    (OutJ(w, h, f, i, j) / 2) * (OutWidth(w, h, f) / 2) + OutI(w, h, f, i, j) / 2
  }

  predicate InGrid(w: int, h: int, i: int, j: int) {
    0 <= i < w && 0 <= j < h
  }

  /**
   * Pixel (i, j) of `yuv` has been copied into `out`: its luma byte and its
   * chroma pair sit at their rotated positions.
   */
  predicate Placed(out: seq<bv8>, yuv: seq<bv8>, w: int, h: int, f: Flags, i: int, j: int) {
    var yo, uo := YOut(w, h, f, i, j), UOut(w, h, f, i, j);
    var yi, ui := YIn(w, i, j), UIn(w, h, i, j);
    && 0 <= yo < |out| && 0 <= uo && uo + 1 < |out|
    && 0 <= yi < |yuv| && 0 <= ui && ui + 1 < |yuv|
    && out[yo] == yuv[yi] && out[uo] == yuv[ui] && out[uo + 1] == yuv[ui + 1]
  }

  /** Every pixel of the input frame has been copied into `out`. */
  ghost predicate AllPlaced(out: seq<bv8>, yuv: seq<bv8>, w: int, h: int, f: Flags) {
    forall i, j :: InGrid(w, h, i, j) ==> Placed(out, yuv, w, h, f, i, j)
  }

  // ---------------------------------------------------------------------
  // Arithmetic helpers

  lemma {:induction false} RowMajorBound(a: int, b: int, width: int, height: int)
    requires 0 <= a < height && 0 <= b < width
    ensures 0 <= a * width + b < height * width
  {
    MulLeMono(0, a, width);
    MulLeMono(a, height - 1, width);
    assert (height - 1) * width == height * width - width;
  }

  lemma {:induction false} RowMajorLess(a: int, b: int, c: int, d: int, width: int)
    requires a < c && 0 <= b < width && 0 <= d
    ensures a * width + b < c * width + d
  {
    MulLeMono(a + 1, c, width);
  }

  lemma {:induction false} RowMajorUnique(a: int, b: int, c: int, d: int, width: int)
    requires 0 <= b < width && 0 <= d < width
    requires a * width + b == c * width + d
    ensures a == c && b == d
  {
    if a < c {
      RowMajorLess(a, b, c, d, width);
    } else if c < a {
      RowMajorLess(c, d, a, b, width);
    }
  }

  /** Flipping a coordinate inside an even extent maps 2x2 blocks to blocks. */
  lemma FlipBlock(extent: int, s: int)
    requires extent % 2 == 0 && 0 <= s < extent
    ensures (extent - s - 1) / 2 == extent / 2 - 1 - s / 2
  {
  }

  lemma ProductEven(a: int, b: int)
    requires b % 2 == 0
    ensures (a * b) % 2 == 0
  {
    assert a * b == 2 * (a * (b / 2));
  }

  lemma FrameProducts(w: int, h: int, f: Flags)
    requires w >= 0 && h >= 0 && w % 2 == 0 && h % 2 == 0
    ensures OutWidth(w, h, f) * OutHeight(w, h, f) == w * h
    ensures (w * h) / 2 == (OutHeight(w, h, f) / 2) * OutWidth(w, h, f)
    ensures (w * h) / 2 == (h / 2) * w
  {
    var oh := OutHeight(w, h, f);
    var ow := OutWidth(w, h, f);
    assert ow * oh == w * h;
    assert oh * ow == 2 * ((oh / 2) * ow);
    assert h * w == 2 * ((h / 2) * w);
  }

  // ---------------------------------------------------------------------
  // Ranges

  lemma {:induction false} OutCoordinatesInRange(w: int, h: int, f: Flags, i: int, j: int)
    requires InGrid(w, h, i, j)
    ensures 0 <= OutI(w, h, f, i, j) < OutWidth(w, h, f)
    ensures 0 <= OutJ(w, h, f, i, j) < OutHeight(w, h, f)
  {
  }

  /** Chroma row `r` of `rows` and column `c` of `width` stay inside the plane. */
  lemma {:induction false} ChromaBound(r: int, c: int, width: int, height: int)
    requires width % 2 == 0 && height % 2 == 0
    requires 0 <= r < height && 0 <= c < width
    ensures 0 <= (r / 2) * width + (c - c % 2)
    ensures (r / 2) * width + (c - c % 2) + 1 < (height / 2) * width
  {
    RowMajorBound(r / 2, c - c % 2 + 1, width, height / 2);
  }

  /**
   * For every pixel of an NV21 frame, each index `rotateNV21` reads or
   * writes lies inside the buffer: luma indices in the luma plane and both
   * chroma bytes in the chroma plane.
   */
  lemma {:induction false} IndicesInRange(w: int, h: int, len: int, f: Flags, i: int, j: int)
    requires IsFrame(w, h, len) && InGrid(w, h, i, j)
    ensures 0 <= YIn(w, i, j) < w * h
    ensures w * h <= UIn(w, h, i, j) && UIn(w, h, i, j) + 1 < len
    ensures 0 <= YOut(w, h, f, i, j) < w * h
    ensures w * h <= UOut(w, h, f, i, j) && UOut(w, h, f, i, j) + 1 < len
  {
    FrameProducts(w, h, f);
    RowMajorBound(j, i, w, h);
    assert h * w == w * h;
    ChromaBound(j, i, w, h);
    OutCoordinatesInRange(w, h, f, i, j);
    var ow, oh := OutWidth(w, h, f), OutHeight(w, h, f);
    var io, jo := OutI(w, h, f, i, j), OutJ(w, h, f, i, j);
    RowMajorBound(jo, io, ow, oh);
    assert oh * ow == w * h;
    ChromaBound(jo, io, ow, oh);
  }

  // ---------------------------------------------------------------------
  // Which writes can collide

  /** Distinct pixels receive distinct luma destinations. */
  lemma {:induction false} LumaInjective(w: int, h: int, f: Flags, i1: int, j1: int, i2: int, j2: int)
    requires InGrid(w, h, i1, j1) && InGrid(w, h, i2, j2)
    requires YOut(w, h, f, i1, j1) == YOut(w, h, f, i2, j2)
    ensures i1 == i2 && j1 == j2
  {
    OutCoordinatesInRange(w, h, f, i1, j1);
    OutCoordinatesInRange(w, h, f, i2, j2);
    RowMajorUnique(OutJ(w, h, f, i1, j1), OutI(w, h, f, i1, j1),
                   OutJ(w, h, f, i2, j2), OutI(w, h, f, i2, j2), OutWidth(w, h, f));
  }

  /** The output 2x2 block of a pixel determines its input 2x2 block. */
  lemma {:induction false} BlockOfOutput(w: int, h: int, f: Flags, i1: int, j1: int, i2: int, j2: int)
    requires w % 2 == 0 && h % 2 == 0
    requires InGrid(w, h, i1, j1) && InGrid(w, h, i2, j2)
    requires OutI(w, h, f, i1, j1) / 2 == OutI(w, h, f, i2, j2) / 2
    requires OutJ(w, h, f, i1, j1) / 2 == OutJ(w, h, f, i2, j2) / 2
    ensures i1 / 2 == i2 / 2 && j1 / 2 == j2 / 2
  {
    var ow, oh := OutWidth(w, h, f), OutHeight(w, h, f);
    var si1, si2 := (if f.swap then j1 else i1), (if f.swap then j2 else i2);
    var sj1, sj2 := (if f.swap then i1 else j1), (if f.swap then i2 else j2);
    if f.xflip {
      FlipBlock(ow, si1);
      FlipBlock(ow, si2);
    }
    if f.yflip {
      FlipBlock(oh, sj1);
      FlipBlock(oh, sj2);
    }
  }

  /**
   * Two pixels that write the same chroma pair read the same chroma pair,
   * so the later write repeats the earlier one.
   */
  lemma {:induction false} ChromaConsistent(w: int, h: int, f: Flags, i1: int, j1: int, i2: int, j2: int)
    requires w >= 0 && h >= 0 && w % 2 == 0 && h % 2 == 0
    requires InGrid(w, h, i1, j1) && InGrid(w, h, i2, j2)
    requires UOut(w, h, f, i1, j1) == UOut(w, h, f, i2, j2)
    ensures UIn(w, h, i1, j1) == UIn(w, h, i2, j2)
  {
    OutCoordinatesInRange(w, h, f, i1, j1);
    OutCoordinatesInRange(w, h, f, i2, j2);
    UOutIsPair(w, h, f, i1, j1);
    UOutIsPair(w, h, f, i2, j2);
    var hw := OutWidth(w, h, f) / 2;
    RowMajorUnique(OutJ(w, h, f, i1, j1) / 2, OutI(w, h, f, i1, j1) / 2,
                   OutJ(w, h, f, i2, j2) / 2, OutI(w, h, f, i2, j2) / 2, hw);
    BlockOfOutput(w, h, f, i1, j1, i2, j2);
  }

  /** The first chroma byte of a pixel sits at an even offset of the chroma plane. */
  lemma {:induction false} UOutIsPair(w: int, h: int, f: Flags, i: int, j: int)
    requires w % 2 == 0 && h % 2 == 0
    ensures UOut(w, h, f, i, j) == w * h + 2 * ChromaPair(w, h, f, i, j)
  {
    var ow, io, jo := OutWidth(w, h, f), OutI(w, h, f, i, j), OutJ(w, h, f, i, j);
    assert ow == 2 * (ow / 2);
    assert (jo / 2) * ow == 2 * ((jo / 2) * (ow / 2));
  }

  /** A first chroma byte never coincides with a second chroma byte. */
  lemma {:induction false} ChromaParity(w: int, h: int, f: Flags, i1: int, j1: int, i2: int, j2: int)
    requires w % 2 == 0 && h % 2 == 0
    ensures UOut(w, h, f, i1, j1) != UOut(w, h, f, i2, j2) + 1
  {
    UOutIsPair(w, h, f, i1, j1);
    UOutIsPair(w, h, f, i2, j2);
  }

  /**
   * The three assignments of one iteration of `rotateNV21`: the luma byte and
   * the chroma pair of pixel (i, j) copied to their rotated positions.
   */
  function CopyPixel(out: seq<bv8>, yuv: seq<bv8>, w: int, h: int, f: Flags, i: int, j: int): (o: seq<bv8>)
    requires IsFrame(w, h, |yuv|) && |out| == |yuv| && InGrid(w, h, i, j)
    ensures |o| == |out|
  {
    IndicesInRange(w, h, |yuv|, f, i, j);
    var yo, uo := YOut(w, h, f, i, j), UOut(w, h, f, i, j);
    var yi, ui := YIn(w, i, j), UIn(w, h, i, j);
    out[yo := yuv[yi]][uo := yuv[ui]][uo + 1 := yuv[ui + 1]]
  }

  /**
   * Copying pixel p keeps every other already copied pixel q in place.
   */
  lemma {:induction false} CopyKeepsPlaced(out: seq<bv8>, yuv: seq<bv8>, w: int, h: int, f: Flags,
                                           ip: int, jp: int, iq: int, jq: int)
    requires IsFrame(w, h, |yuv|) && |out| == |yuv|
    requires InGrid(w, h, ip, jp) && InGrid(w, h, iq, jq) && (ip != iq || jp != jq)
    requires Placed(out, yuv, w, h, f, iq, jq)
    ensures Placed(CopyPixel(out, yuv, w, h, f, ip, jp), yuv, w, h, f, iq, jq)
  {
    IndicesInRange(w, h, |yuv|, f, ip, jp);
    IndicesInRange(w, h, |yuv|, f, iq, jq);
    ChromaParity(w, h, f, ip, jp, iq, jq);
    ChromaParity(w, h, f, iq, jq, ip, jp);
    var yo, uo := YOut(w, h, f, ip, jp), UOut(w, h, f, ip, jp);
    var yq, uq := YOut(w, h, f, iq, jq), UOut(w, h, f, iq, jq);
    if yo == yq {
      LumaInjective(w, h, f, ip, jp, iq, jq);
    }
    if uo == uq {
      ChromaConsistent(w, h, f, ip, jp, iq, jq);
    }
    var yi, ui := YIn(w, ip, jp), UIn(w, h, ip, jp);
    var yiq, uiq := YIn(w, iq, jq), UIn(w, h, iq, jq);
    var o := CopyPixel(out, yuv, w, h, f, ip, jp);
    assert o == out[yo := yuv[yi]][uo := yuv[ui]][uo + 1 := yuv[ui + 1]];
    assert o[yq] == yuv[yiq];
    assert o[uq] == yuv[uiq];
    assert o[uq + 1] == yuv[uiq + 1];
  }

  /** Copying pixel p places p itself. */
  lemma {:induction false} CopyPlaces(out: seq<bv8>, yuv: seq<bv8>, w: int, h: int, f: Flags, i: int, j: int)
    requires IsFrame(w, h, |yuv|) && |out| == |yuv|
    requires InGrid(w, h, i, j)
    ensures Placed(CopyPixel(out, yuv, w, h, f, i, j), yuv, w, h, f, i, j)
  {
    IndicesInRange(w, h, |yuv|, f, i, j);
    var yo, uo := YOut(w, h, f, i, j), UOut(w, h, f, i, j);
    var yi, ui := YIn(w, i, j), UIn(w, h, i, j);
    var o := CopyPixel(out, yuv, w, h, f, i, j);
    assert o == out[yo := yuv[yi]][uo := yuv[ui]][uo + 1 := yuv[ui + 1]];
    assert o[yo] == yuv[yi];
    assert o[uo] == yuv[ui];
  }

  /** The pixels before (i, j) in row-major order have been copied into `out`. */
  ghost predicate PlacedBefore(out: seq<bv8>, yuv: seq<bv8>, w: int, h: int, f: Flags, i: int, j: int) {
    forall ii, jj :: InGrid(w, h, ii, jj) && (jj < j || (jj == j && ii < i)) ==>
      Placed(out, yuv, w, h, f, ii, jj)
  }

  /** One iteration of the copy loop extends the copied prefix by pixel (i, j). */
  lemma {:induction false} CopyAdvances(out: seq<bv8>, yuv: seq<bv8>, w: int, h: int, f: Flags, i: int, j: int)
    requires IsFrame(w, h, |yuv|) && |out| == |yuv| && InGrid(w, h, i, j)
    requires PlacedBefore(out, yuv, w, h, f, i, j)
    ensures PlacedBefore(CopyPixel(out, yuv, w, h, f, i, j), yuv, w, h, f, i + 1, j)
  {
    var o := CopyPixel(out, yuv, w, h, f, i, j);
    forall ii, jj | InGrid(w, h, ii, jj) && (jj < j || (jj == j && ii < i + 1))
      ensures Placed(o, yuv, w, h, f, ii, jj)
    {
      if ii == i && jj == j {
        CopyPlaces(out, yuv, w, h, f, i, j);
      } else {
        CopyKeepsPlaced(out, yuv, w, h, f, i, j, ii, jj);
      }
    }
  }

  /** Finishing a row is starting the next one. */
  lemma RowDone(out: seq<bv8>, yuv: seq<bv8>, w: int, h: int, f: Flags, j: int)
    requires PlacedBefore(out, yuv, w, h, f, w, j)
    ensures PlacedBefore(out, yuv, w, h, f, 0, j + 1)
  {
  }

  /** Once every row is finished, every pixel has been copied. */
  lemma AllRowsDone(out: seq<bv8>, yuv: seq<bv8>, w: int, h: int, f: Flags)
    requires PlacedBefore(out, yuv, w, h, f, 0, h)
    ensures AllPlaced(out, yuv, w, h, f)
  {
  }

  // ---------------------------------------------------------------------
  // Every destination is reached

  /** The input pixel that lands on (io, jo) of the rotated frame. */
  function SourceI(w: int, h: int, f: Flags, io: int, jo: int): int {
    var si := if f.xflip then OutWidth(w, h, f) - io - 1 else io;
    var sj := if f.yflip then OutHeight(w, h, f) - jo - 1 else jo;
    if f.swap then sj else si
  }

  function SourceJ(w: int, h: int, f: Flags, io: int, jo: int): int {
    var si := if f.xflip then OutWidth(w, h, f) - io - 1 else io;
    var sj := if f.yflip then OutHeight(w, h, f) - jo - 1 else jo;
    if f.swap then si else sj
  }

  lemma {:induction false} SourceIsInverse(w: int, h: int, f: Flags, io: int, jo: int)
    requires 0 <= io < OutWidth(w, h, f) && 0 <= jo < OutHeight(w, h, f)
    ensures InGrid(w, h, SourceI(w, h, f, io, jo), SourceJ(w, h, f, io, jo))
    ensures OutI(w, h, f, SourceI(w, h, f, io, jo), SourceJ(w, h, f, io, jo)) == io
    ensures OutJ(w, h, f, SourceI(w, h, f, io, jo), SourceJ(w, h, f, io, jo)) == jo
  {
  }

  lemma PositiveFactors(a: int, b: int)
    requires a >= 0 && b >= 0 && a * b > 0
    ensures a > 0 && b > 0
  {
  }

  /**
   * The luma destinations form a bijection between the pixels of the frame
   * and the luma plane: distinct pixels land on distinct indices, and every
   * luma index below `w * h` is the destination of some pixel.
   */
  lemma {:induction false} LumaBijective(w: int, h: int, f: Flags, k: int)
    requires w >= 0 && h >= 0 && 0 <= k < w * h
    ensures forall i1, j1, i2, j2 ::
      InGrid(w, h, i1, j1) && InGrid(w, h, i2, j2) && (i1 != i2 || j1 != j2)
      ==> YOut(w, h, f, i1, j1) != YOut(w, h, f, i2, j2)
    ensures exists i, j :: InGrid(w, h, i, j) && YOut(w, h, f, i, j) == k
  {
    forall i1, j1, i2, j2 | InGrid(w, h, i1, j1) && InGrid(w, h, i2, j2) && (i1 != i2 || j1 != j2)
      ensures YOut(w, h, f, i1, j1) != YOut(w, h, f, i2, j2)
    {
      if YOut(w, h, f, i1, j1) == YOut(w, h, f, i2, j2) {
        LumaInjective(w, h, f, i1, j1, i2, j2);
      }
    }
    var i, j := LumaSource(w, h, f, k);
  }

  /** The pixel whose luma byte lands on index `k`. */
  lemma {:induction false} LumaSource(w: int, h: int, f: Flags, k: int) returns (i: int, j: int)
    requires w >= 0 && h >= 0 && 0 <= k < w * h
    ensures InGrid(w, h, i, j) && YOut(w, h, f, i, j) == k
  {
    var ow, oh := OutWidth(w, h, f), OutHeight(w, h, f);
    assert oh * ow == w * h;
    PositiveFactors(oh, ow);
    DivBelow(k, ow, oh);
    var io, jo := k % ow, k / ow;
    SourceIsInverse(w, h, f, io, jo);
    i, j := SourceI(w, h, f, io, jo), SourceJ(w, h, f, io, jo);
  }

  /** A pixel whose chroma pair covers byte `c` of the chroma plane. */
  lemma {:induction false} ChromaSource(w: int, h: int, f: Flags, c: int) returns (i: int, j: int)
    requires w >= 0 && h >= 0 && w % 2 == 0 && h % 2 == 0
    requires 0 <= c < (w * h) / 2
    ensures InGrid(w, h, i, j)
    ensures UOut(w, h, f, i, j) == w * h + c || UOut(w, h, f, i, j) + 1 == w * h + c
  {
    FrameProducts(w, h, f);
    var ow, oh := OutWidth(w, h, f), OutHeight(w, h, f);
    PositiveFactors(oh / 2, ow);
    DivBelow(c, ow, oh / 2);
    var r, col := c / ow, c % ow;
    var io, jo := col - col % 2, 2 * r;
    SourceIsInverse(w, h, f, io, jo);
    i, j := SourceI(w, h, f, io, jo), SourceJ(w, h, f, io, jo);
    assert OutI(w, h, f, i, j) == io && OutJ(w, h, f, i, j) == jo;
    assert jo / 2 == r && io % 2 == 0;
    assert UOut(w, h, f, i, j) == w * h + r * ow + io;
  }

  /**
   * The copy is complete: two buffers of the frame's length in which every
   * pixel of `yuv` has been placed are equal, so the rotated frame is fully
   * determined by the input.
   */
  lemma {:induction false} PlacedDetermines(a: seq<bv8>, b: seq<bv8>, yuv: seq<bv8>, w: int, h: int, f: Flags)
    requires IsFrame(w, h, |yuv|) && |a| == |yuv| && |b| == |yuv|
    requires AllPlaced(a, yuv, w, h, f) && AllPlaced(b, yuv, w, h, f)
    ensures a == b
  {
    forall k | 0 <= k < |a| ensures a[k] == b[k] {
      if k < w * h {
        var i, j := LumaSource(w, h, f, k);
        assert Placed(a, yuv, w, h, f, i, j) && Placed(b, yuv, w, h, f, i, j);
      } else {
        var i, j := ChromaSource(w, h, f, k - w * h);
        assert Placed(a, yuv, w, h, f, i, j) && Placed(b, yuv, w, h, f, i, j);
      }
    }
  }
}

=== FILE: Preferences.dfy ===
/**
 * `SMSSecurePreferences`: the application's settings, kept in Android's
 * shared-preferences store under fixed keys.  The store maps a key to a
 * boolean, a string, an `int` or a `long`; a getter returns the stored value
 * or the caller's default for an absent key, and asking for a key that holds
 * a value of another type is a `ClassCastException`.  Storing a `null`
 * string removes the key.  On top of the generic accessors sit the getters
 * that interpret what they read: the repeat-alert count parsed from text,
 * the push registration id that only counts for the release it was stored
 * under, the user agent and custom-MMSC switches, and the push fallback
 * switches that are now fixed whatever is stored.
 */
module SMSSecurePreferences {
  import opened Wrappers
  import opened JavaLang

  datatype PrefValue =
    | BoolValue(b: bool)
    | StringValue(s: string)
    | IntValue(i: int)
    | LongValue(l: int)

  type Store = map<string, PrefValue>

  const REPEAT_ALERTS_PREF: string := "pref_repeat_alerts"
  const GCM_REGISTRATION_ID_PREF: string := "pref_gcm_registration_id"
  const GCM_REGISTRATION_ID_VERSION_PREF: string := "pref_gcm_registration_id_version"
  const MMS_USER_AGENT: string := "pref_mms_user_agent"
  const MMS_CUSTOM_USER_AGENT: string := "pref_custom_mms_user_agent"
  const ENABLE_MANUAL_MMS_PREF: string := "pref_enable_manual_mms"
  const MMSC_CUSTOM_HOST_PREF: string := "pref_apn_mmsc_custom_host"
  const MMSC_CUSTOM_PROXY_PREF: string := "pref_apn_mms_custom_proxy"
  const MMSC_CUSTOM_PROXY_PORT_PREF: string := "pref_apn_mms_custom_proxy_port"
  const MMSC_CUSTOM_USERNAME_PREF: string := "pref_apn_mmsc_custom_username"
  const MMSC_CUSTOM_PASSWORD_PREF: string := "pref_apn_mmsc_custom_password"
  const LAST_VERSION_CODE_PREF: string := "last_version_code"
  const FALLBACK_SMS_ALLOWED_PREF: string := "pref_allow_sms_traffic_out"
  const FALLBACK_SMS_ASK_REQUIRED_PREF: string := "pref_sms_fallback_ask"
  const DIRECT_SMS_ALLOWED_PREF: string := "pref_sms_non_data_out"
  const FALLBACK_MMS_ENABLED_PREF: string := "pref_mms_fallback_enabled"

  const VERSION_CODE_WRITE_FAILED: string := "couldn't write version code to sharedpreferences"

  // ---------------------------------------------------------------------
  // The generic accessors

  function GetBooleanPreference(m: Store, key: string, defaultValue: bool): (r: Result<bool>)
    ensures key !in m ==> r == Ok(defaultValue)
    ensures key in m && m[key].BoolValue? ==> r == Ok(m[key].b)
    ensures r.Err? <==> key in m && !m[key].BoolValue?
    ensures r.Err? ==> r.error == ClassCastException
  {
    if key !in m then Ok(defaultValue)
    else match m[key]
      case BoolValue(b) => Ok(b)
      case _ => Err(ClassCastException)
  }

  /** A `null` result is `None`; a stored string is never `null`. */
  function GetStringPreference(m: Store, key: string, defaultValue: Option<string>): (r: Result<Option<string>>)
    ensures key !in m ==> r == Ok(defaultValue)
    ensures key in m && m[key].StringValue? ==> r == Ok(Some(m[key].s))
    ensures r.Err? <==> key in m && !m[key].StringValue?
    ensures r.Err? ==> r.error == ClassCastException
  {
    if key !in m then Ok(defaultValue)
    else match m[key]
      case StringValue(s) => Ok(Some(s))
      case _ => Err(ClassCastException)
  }

  function GetIntegerPreference(m: Store, key: string, defaultValue: int): (r: Result<int>)
    ensures key !in m ==> r == Ok(defaultValue)
    ensures key in m && m[key].IntValue? ==> r == Ok(m[key].i)
    ensures r.Err? <==> key in m && !m[key].IntValue?
    ensures r.Err? ==> r.error == ClassCastException
  {
    if key !in m then Ok(defaultValue)
    else match m[key]
      case IntValue(i) => Ok(i)
      case _ => Err(ClassCastException)
  }

  function GetLongPreference(m: Store, key: string, defaultValue: int): (r: Result<int>)
    ensures key !in m ==> r == Ok(defaultValue)
    ensures key in m && m[key].LongValue? ==> r == Ok(m[key].l)
    ensures r.Err? <==> key in m && !m[key].LongValue?
    ensures r.Err? ==> r.error == ClassCastException
  {
    if key !in m then Ok(defaultValue)
    else match m[key]
      case LongValue(l) => Ok(l)
      case _ => Err(ClassCastException)
  }

  /** The store after `putString(key, value)`: a `null` value removes the key. */
  function PutString(m: Store, key: string, value: Option<string>): (m': Store)
    ensures forall d :: GetStringPreference(m', key, d) == Ok(if value.Some? then value else d)
    ensures forall k :: k != key ==> (k in m' <==> k in m) && (k in m ==> m'[k] == m[k])
  {
    if value.Some? then m[key := StringValue(value.value)] else m - {key}
  }

  // ---------------------------------------------------------------------
  // Derived getters

  /**
   * `getRepeatAlertsCount`: the stored text parsed as an `int`, "0" when
   * absent, and 0 when the text does not parse.  A value of another type is
   * not caught.
   */
  function GetRepeatAlertsCount(m: Store): (r: Result<int>)
    ensures REPEAT_ALERTS_PREF !in m ==> r == Ok(0)
    ensures r.Err? <==> GetStringPreference(m, REPEAT_ALERTS_PREF, Some("0")).Err?
    ensures r.Err? ==> r.error == ClassCastException
    ensures r.Ok? ==> IsInt32(r.value)
  {
    ParseIntOfIntToString(0);
    assert IntToString(0) == "0";
    match GetStringPreference(m, REPEAT_ALERTS_PREF, Some("0"))
    case Err(e) => Err(e)
    case Ok(text) =>
      match ParseInt(text)
      case Ok(n) => Ok(n)
      case Err(_) => Ok(0)
  }

  /** Setting the count stores its decimal text, which reads back as the same count. */
  lemma {:induction false} RepeatAlertsRoundTrip(m: Store, count: int)
    requires IsInt32(count)
    ensures GetRepeatAlertsCount(PutString(m, REPEAT_ALERTS_PREF, Some(IntToString(count)))) == Ok(count)
  {
    ParseIntOfIntToString(count);
  }

  /** Text that is not a number reads as no repeats. */
  lemma {:induction false} UnparsableRepeatAlertsIsZero(m: Store, text: string)
    requires ParseInt(Some(text)).Err?
    ensures GetRepeatAlertsCount(PutString(m, REPEAT_ALERTS_PREF, Some(text))) == Ok(0)
  {
    assert GetStringPreference(PutString(m, REPEAT_ALERTS_PREF, Some(text)), REPEAT_ALERTS_PREF, Some("0"))
        == Ok(Some(text));
  }

  /**
   * `getGcmRegistrationId`: the stored id, but only when the version stored
   * with it (0 when absent) is the running release's version.
   */
  function GetGcmRegistrationId(m: Store, currentVersion: int): (r: Result<Option<string>>)
    ensures GetIntegerPreference(m, GCM_REGISTRATION_ID_VERSION_PREF, 0).Err? ==> r == Err(ClassCastException)
    ensures GetIntegerPreference(m, GCM_REGISTRATION_ID_VERSION_PREF, 0) == Ok(currentVersion) ==>
      r == GetStringPreference(m, GCM_REGISTRATION_ID_PREF, None)
    ensures r.Ok? && r.value.Some? ==>
      GetIntegerPreference(m, GCM_REGISTRATION_ID_VERSION_PREF, 0) == Ok(currentVersion)
      && GCM_REGISTRATION_ID_PREF in m && m[GCM_REGISTRATION_ID_PREF] == StringValue(r.value.value)
  {
    match GetIntegerPreference(m, GCM_REGISTRATION_ID_VERSION_PREF, 0)
    case Err(e) => Err(e)
    case Ok(storedVersion) =>
      if storedVersion != currentVersion then Ok(None)
      else GetStringPreference(m, GCM_REGISTRATION_ID_PREF, None)
  }

  /** The store after `setGcmRegistrationId`: the id, then the version it belongs to. */
  function StoreGcmRegistrationId(m: Store, registrationId: Option<string>, currentVersion: int): (m': Store)
    ensures GCM_REGISTRATION_ID_VERSION_PREF in m' && m'[GCM_REGISTRATION_ID_VERSION_PREF] == IntValue(currentVersion)
  {
    PutString(m, GCM_REGISTRATION_ID_PREF, registrationId)[GCM_REGISTRATION_ID_VERSION_PREF := IntValue(currentVersion)]
  }

  /** An id set under a release reads back under that release, and as nothing under any other. */
  lemma {:induction false} GcmRegistrationRoundTrip(m: Store, registrationId: Option<string>,
                                                    storedVersion: int, currentVersion: int)
    ensures var m' := StoreGcmRegistrationId(m, registrationId, storedVersion);
      GetGcmRegistrationId(m', currentVersion) == Ok(if storedVersion == currentVersion then registrationId else None)
  {
    var m1 := PutString(m, GCM_REGISTRATION_ID_PREF, registrationId);
    var m' := StoreGcmRegistrationId(m, registrationId, storedVersion);
    assert GetIntegerPreference(m', GCM_REGISTRATION_ID_VERSION_PREF, 0) == Ok(storedVersion);
    assert GetStringPreference(m', GCM_REGISTRATION_ID_PREF, None) == GetStringPreference(m1, GCM_REGISTRATION_ID_PREF, None);
  }

  /** `getMmsUserAgent`: the stored agent only when the custom-agent switch is on. */
  function GetMmsUserAgent(m: Store, defaultUserAgent: Option<string>): (r: Result<Option<string>>)
    ensures GetBooleanPreference(m, MMS_CUSTOM_USER_AGENT, false) == Ok(false) ==> r == Ok(defaultUserAgent)
    ensures GetBooleanPreference(m, MMS_CUSTOM_USER_AGENT, false) == Ok(true) ==>
      r == GetStringPreference(m, MMS_USER_AGENT, defaultUserAgent)
    ensures GetBooleanPreference(m, MMS_CUSTOM_USER_AGENT, false).Err? ==> r == Err(ClassCastException)
  {
    match GetBooleanPreference(m, MMS_CUSTOM_USER_AGENT, false)
    case Err(e) => Err(e)
    case Ok(useCustom) =>
      if useCustom then GetStringPreference(m, MMS_USER_AGENT, defaultUserAgent) else Ok(defaultUserAgent)
  }

  /** `isLegacyUseLocalApnsEnabled`: the old manual-MMS switch, off by default. */
  function IsLegacyUseLocalApnsEnabled(m: Store): (r: Result<bool>)
    ensures ENABLE_MANUAL_MMS_PREF !in m ==> r == Ok(false)
  {
    GetBooleanPreference(m, ENABLE_MANUAL_MMS_PREF, false)
  }

  /** A custom-MMSC switch, which follows the legacy manual-MMS switch until it is set itself. */
  function GetUseCustom(m: Store, key: string): (r: Result<bool>)
    ensures key !in m ==> r == IsLegacyUseLocalApnsEnabled(m)
    ensures IsLegacyUseLocalApnsEnabled(m).Ok? && key in m && m[key].BoolValue? ==> r == Ok(m[key].b)
  {
    match IsLegacyUseLocalApnsEnabled(m)
    case Err(e) => Err(e)
    case Ok(legacy) => GetBooleanPreference(m, key, legacy)
  }

  function GetUseCustomMmsc(m: Store): (r: Result<bool>)
    ensures MMSC_CUSTOM_HOST_PREF !in m ==> r == IsLegacyUseLocalApnsEnabled(m)
  {
    GetUseCustom(m, MMSC_CUSTOM_HOST_PREF)
  }

  function GetUseCustomMmscProxy(m: Store): (r: Result<bool>)
    ensures MMSC_CUSTOM_PROXY_PREF !in m ==> r == IsLegacyUseLocalApnsEnabled(m)
  {
    GetUseCustom(m, MMSC_CUSTOM_PROXY_PREF)
  }

  function GetUseCustomMmscProxyPort(m: Store): (r: Result<bool>)
    ensures MMSC_CUSTOM_PROXY_PORT_PREF !in m ==> r == IsLegacyUseLocalApnsEnabled(m)
  {
    GetUseCustom(m, MMSC_CUSTOM_PROXY_PORT_PREF)
  }

  function GetUseCustomMmscUsername(m: Store): (r: Result<bool>)
    ensures MMSC_CUSTOM_USERNAME_PREF !in m ==> r == IsLegacyUseLocalApnsEnabled(m)
  {
    GetUseCustom(m, MMSC_CUSTOM_USERNAME_PREF)
  }

  function GetUseCustomMmscPassword(m: Store): (r: Result<bool>)
    ensures MMSC_CUSTOM_PASSWORD_PREF !in m ==> r == IsLegacyUseLocalApnsEnabled(m)
  {
    GetUseCustom(m, MMSC_CUSTOM_PASSWORD_PREF)
  }

  /** Switching a custom-MMSC flag on or off overrides the legacy switch. */
  lemma {:induction false} CustomFlagOverridesLegacy(m: Store, key: string, value: bool)
    requires key != ENABLE_MANUAL_MMS_PREF
    requires IsLegacyUseLocalApnsEnabled(m).Ok?
    ensures GetUseCustom(m[key := BoolValue(value)], key) == Ok(value)
  {
    assert IsLegacyUseLocalApnsEnabled(m[key := BoolValue(value)]) == IsLegacyUseLocalApnsEnabled(m);
  }

  /** `getLastVersionCode`: 0 until a version code is stored. */
  function GetLastVersionCode(m: Store): (r: Result<int>)
    ensures LAST_VERSION_CODE_PREF !in m ==> r == Ok(0)
  {
    GetIntegerPreference(m, LAST_VERSION_CODE_PREF, 0)
  }

  // ---------------------------------------------------------------------
  // The push fallback switches, fixed whatever the store holds

  function IsFallbackSmsAllowed(m: Store): (allowed: bool)
    ensures !allowed
  {
    false
  }

  function IsFallbackSmsAskRequired(m: Store): (required: bool)
    ensures !required
  {
    false
  }

  function IsFallbackMmsEnabled(m: Store): (enabled: bool)
    ensures enabled
  {
    true
  }

  function IsDirectSmsAllowed(m: Store): (allowed: bool)
    ensures allowed
  {
    true
  }

  // ---------------------------------------------------------------------
  // The store and its setters

  /** The default shared preferences as the process sees them. */
  class SharedPreferences {
    var values: Store

    constructor(initial: Store)
      ensures values == initial
    {
      values := initial;
    }

    method SetBooleanPreference(key: string, value: bool)
      modifies this
      ensures values == old(values)[key := BoolValue(value)]
      ensures forall d :: GetBooleanPreference(values, key, d) == Ok(value)
    {
      values := values[key := BoolValue(value)];
    }

    method SetStringPreference(key: string, value: Option<string>)
      modifies this
      ensures values == PutString(old(values), key, value)
    {
      values := PutString(values, key, value);
    }

    method SetIntegerPreference(key: string, value: int)
      modifies this
      ensures values == old(values)[key := IntValue(value)]
      ensures forall d :: GetIntegerPreference(values, key, d) == Ok(value)
    {
      values := values[key := IntValue(value)];
    }

    /**
     * `setIntegerPrefrenceBlocking`: the value is in the store once the
     * edit is committed, whether or not `committed` (the disk write's
     * outcome) reports success.
     */
    method SetIntegerPreferenceBlocking(key: string, value: int, committed: bool) returns (ok: bool)
      modifies this
      ensures values == old(values)[key := IntValue(value)]
      ensures ok == committed
    {
      values := values[key := IntValue(value)];
      ok := committed;
    }

    method SetLongPreference(key: string, value: int)
      modifies this
      ensures values == old(values)[key := LongValue(value)]
      ensures forall d :: GetLongPreference(values, key, d) == Ok(value)
    {
      values := values[key := LongValue(value)];
    }

    method SetRepeatAlertsCount(count: int)
      requires IsInt32(count)
      modifies this
      ensures values == PutString(old(values), REPEAT_ALERTS_PREF, Some(IntToString(count)))
      ensures GetRepeatAlertsCount(values) == Ok(count)
    {
      SetStringPreference(REPEAT_ALERTS_PREF, Some(IntToString(count)));
      RepeatAlertsRoundTrip(old(values), count);
    }

    method SetGcmRegistrationId(registrationId: Option<string>, currentVersion: int)
      modifies this
      ensures values == StoreGcmRegistrationId(old(values), registrationId, currentVersion)
      ensures GetGcmRegistrationId(values, currentVersion) == Ok(registrationId)
    {
      SetStringPreference(GCM_REGISTRATION_ID_PREF, registrationId);
      SetIntegerPreference(GCM_REGISTRATION_ID_VERSION_PREF, currentVersion);
      GcmRegistrationRoundTrip(old(values), registrationId, currentVersion, currentVersion);
    }

    /** The stored fallback switches are written but never read back. */
    method SetFallbackSmsAllowed(allowed: bool)
      modifies this
      ensures values == old(values)[FALLBACK_SMS_ALLOWED_PREF := BoolValue(allowed)]
      ensures !IsFallbackSmsAllowed(values)
    {
      SetBooleanPreference(FALLBACK_SMS_ALLOWED_PREF, allowed);
    }

    method SetFallbackSmsAskRequired(required: bool)
      modifies this
      ensures values == old(values)[FALLBACK_SMS_ASK_REQUIRED_PREF := BoolValue(required)]
      ensures !IsFallbackSmsAskRequired(values)
    {
      SetBooleanPreference(FALLBACK_SMS_ASK_REQUIRED_PREF, required);
    }

    method SetFallbackMmsEnabled(enabled: bool)
      modifies this
      ensures values == old(values)[FALLBACK_MMS_ENABLED_PREF := BoolValue(enabled)]
      ensures IsFallbackMmsEnabled(values)
    {
      SetBooleanPreference(FALLBACK_MMS_ENABLED_PREF, enabled);
    }

    method SetDirectSmsAllowed(allowed: bool)
      modifies this
      ensures values == old(values)[DIRECT_SMS_ALLOWED_PREF := BoolValue(allowed)]
      ensures IsDirectSmsAllowed(values)
    {
      SetBooleanPreference(DIRECT_SMS_ALLOWED_PREF, allowed);
    }

    /**
     * `setLastVersionCode`: a blocking write of the version code; a failed
     * commit is an `IOException`.
     */
    method SetLastVersionCode(versionCode: int, committed: bool) returns (r: Result<()>)
      modifies this
      ensures values == old(values)[LAST_VERSION_CODE_PREF := IntValue(versionCode)]
      ensures GetLastVersionCode(values) == Ok(versionCode)
      ensures r.Err? <==> !committed
      ensures r.Err? ==> r.error == IOException(VERSION_CODE_WRITE_FAILED)
    {
      var ok := SetIntegerPreferenceBlocking(LAST_VERSION_CODE_PREF, versionCode, committed);
      if !ok {
        return Err(IOException(VERSION_CODE_WRITE_FAILED));
      }
      r := Ok(());
    }
  }
}

=== FILE: PushTransport.dfy ===
/**
 * `PushTransport`: how a message is handed to the push server.  A text
 * message is encrypted for the recipient's session and tagged with the
 * message type the server needs to decrypt it; a multimedia message goes as
 * plaintext with its image, audio and video parts attached.  A rate-limit
 * answer from the server surfaces as an `IOException`.
 *
 * The server, the session store and the ciphers are outside the model: what
 * the server would answer comes in as parameters, the ciphertext as a
 * function of the plaintext, and the messages sent, the prekeys requested
 * and the "sent" broadcasts are recorded in `Outbox`.
 */
module PushTransport {
  import opened Wrappers

  const TYPE_MESSAGE_PLAINTEXT: int := 0
  const TYPE_MESSAGE_CIPHERTEXT: int := 1
  const TYPE_MESSAGE_KEY_EXCHANGE: int := 2
  const TYPE_MESSAGE_PREKEY_BUNDLE: int := 3

  const RATE_LIMIT_MESSAGE: string := "Rate limit exceeded."

  // ---------------------------------------------------------------------
  // Message type selection

  /** What the session store knows about the recipient. */
  datatype SessionState = SessionState(nonPrekeySession: bool, session: bool)

  /** The three ways `getEncryptedMessage` can encrypt. */
  datatype Route = ExistingSession | PrekeyBundleForExistingSession | PrekeyBundleForNewSession

  /** The branch of `getEncryptedMessage` taken for a session state. */
  function RouteFor(state: SessionState): (route: Route)
    ensures route == ExistingSession <==> state.nonPrekeySession
    ensures route == PrekeyBundleForNewSession <==> !state.nonPrekeySession && !state.session
  {
    if state.nonPrekeySession then ExistingSession
    else if state.session then PrekeyBundleForExistingSession
    else PrekeyBundleForNewSession
  }

  /** The type tag sent with a message encrypted along `route`. */
  function TagFor(route: Route): (tag: int)
    ensures tag == TYPE_MESSAGE_CIPHERTEXT <==> route == ExistingSession
    ensures tag == TYPE_MESSAGE_PREKEY_BUNDLE <==> route != ExistingSession
  {
    if route == ExistingSession then TYPE_MESSAGE_CIPHERTEXT else TYPE_MESSAGE_PREKEY_BUNDLE
  }

  /** An encrypted text message is never tagged plaintext or key exchange. */
  lemma {:induction false} EncryptedTags(state: SessionState)
    ensures TagFor(RouteFor(state)) in {TYPE_MESSAGE_CIPHERTEXT, TYPE_MESSAGE_PREKEY_BUNDLE}
    ensures TagFor(RouteFor(state)) != TYPE_MESSAGE_KEY_EXCHANGE
    ensures TagFor(RouteFor(state)) != TYPE_MESSAGE_PLAINTEXT
  {
    match RouteFor(state)
    case ExistingSession =>
    case PrekeyBundleForExistingSession =>
    case PrekeyBundleForNewSession =>
  }

  // ---------------------------------------------------------------------
  // getAttachmentsFromBody

  /** A part of a multimedia message's body. */
  datatype Part = Part(contentType: string, data: seq<bv8>)

  datatype PushAttachmentData = PushAttachmentData(contentType: string, data: seq<bv8>)

  predicate StartsWith(s: string, prefix: string) {
    |prefix| <= |s| && s[..|prefix|] == prefix
  }

  /** `ContentType.isImageType`, `isAudioType` or `isVideoType`. */
  predicate IsPushMedia(contentType: string) {
    StartsWith(contentType, "image/") || StartsWith(contentType, "audio/") || StartsWith(contentType, "video/")
  }

  function AttachmentOf(p: Part): PushAttachmentData {
    PushAttachmentData(p.contentType, p.data)
  }

  /** The attachments of a body: its image, audio and video parts. */
  function Attachments(parts: seq<Part>): (atts: seq<PushAttachmentData>)
    ensures |atts| <= |parts|
    ensures forall k :: 0 <= k < |atts| ==> IsPushMedia(atts[k].contentType)
  {
    if parts == [] then []
    else
      var last := parts[|parts| - 1];
      Attachments(parts[..|parts| - 1]) + (if IsPushMedia(last.contentType) then [AttachmentOf(last)] else [])
  }

  /** The positions of the image, audio and video parts, in increasing order. */
  function MediaPositions(parts: seq<Part>): (positions: seq<int>)
    ensures forall k :: 0 <= k < |positions| ==> 0 <= positions[k] < |parts| && IsPushMedia(parts[positions[k]].contentType)
    ensures forall k, l :: 0 <= k < l < |positions| ==> positions[k] < positions[l]
    ensures forall i :: 0 <= i < |parts| && IsPushMedia(parts[i].contentType) ==> i in positions
  {
    if parts == [] then []
    else
      var front := parts[..|parts| - 1];
      var before := MediaPositions(front);
      assert forall k :: 0 <= k < |before| ==> parts[before[k]] == front[before[k]];
      before + (if IsPushMedia(parts[|parts| - 1].contentType) then [|parts| - 1] else [])
  }

  /**
   * The attachments are exactly the media parts, in the order of the body:
   * the `k`th attachment is the part at the `k`th media position.
   */
  lemma {:induction false} AttachmentsInOrder(parts: seq<Part>)
    ensures |Attachments(parts)| == |MediaPositions(parts)|
    ensures forall k :: 0 <= k < |Attachments(parts)| ==>
      Attachments(parts)[k] == AttachmentOf(parts[MediaPositions(parts)[k]])
  {
    if parts != [] {
      var front := parts[..|parts| - 1];
      AttachmentsInOrder(front);
      assert forall k :: 0 <= k < |MediaPositions(front)| ==>
        parts[MediaPositions(front)[k]] == front[MediaPositions(front)[k]];
    }
  }

  /** A body without image, audio or video parts has no attachments. */
  lemma {:induction false} NoMediaNoAttachments(parts: seq<Part>)
    requires forall i :: 0 <= i < |parts| ==> !IsPushMedia(parts[i].contentType)
    ensures Attachments(parts) == []
  {
    if parts != [] {
      var front := parts[..|parts| - 1];
      assert forall i :: 0 <= i < |front| ==> front[i] == parts[i];
      NoMediaNoAttachments(front);
    }
  }

  /** `getAttachmentsFromBody`: walk the parts and keep the media ones. */
  method GetAttachmentsFromBody(body: seq<Part>) returns (attachments: seq<PushAttachmentData>)
    ensures attachments == Attachments(body)
  {
    attachments := [];
    for i := 0 to |body|
      invariant attachments == Attachments(body[..i])
    {
      var contentType := body[i].contentType;
      if StartsWith(contentType, "image/") || StartsWith(contentType, "audio/") || StartsWith(contentType, "video/") {
        attachments := attachments + [PushAttachmentData(contentType, body[i].data)];
      }
      assert body[..i + 1][..i] == body[..i];
    }
    assert body[..|body|] == body;
  }

  // ---------------------------------------------------------------------
  // Delivery

  /** A request the push server received. */
  datatype Request =
    | SendMessage(destinations: seq<string>, body: string, tag: int)
    | SendMessageWithAttachments(destinations: seq<string>, body: string, attachments: seq<PushAttachmentData>, tag: int)

  /** A "message sent" broadcast: the message id and type. */
  datatype SentIntent = SentIntent(messageId: int, messageType: int)

  /** What the transport's calls leave behind outside the process. */
  class Outbox {
    var requests: seq<Request>
    /** The numbers whose prekeys were fetched from the server. */
    var preKeyFetches: seq<string>
    var broadcasts: seq<SentIntent>

    constructor()
      ensures requests == [] && preKeyFetches == [] && broadcasts == []
    {
      requests := [];
      preKeyFetches := [];
      broadcasts := [];
    }
  }

  /** The exception a `deliver` reports for a server failure: a rate limit becomes an `IOException`. */
  function Reported(e: Exception): (reported: Exception)
    ensures e == RateLimitException ==> reported == IOException(RATE_LIMIT_MESSAGE)
    ensures e != RateLimitException ==> reported == e
  {
    if e == RateLimitException then IOException(RATE_LIMIT_MESSAGE) else e
  }

  /**
   * `getEncryptedMessage`: encrypt along the route the session state
   * selects; only a recipient without any session needs a prekey from the
   * server, and a failed fetch is the server's exception.
   */
  method GetEncryptedMessage(outbox: Outbox, state: SessionState, canonicalNumber: string, plaintext: string,
                             encrypt: (Route, string) -> string, preKeyFailure: Option<Exception>)
    returns (r: Result<(int, string)>)
    modifies outbox
    ensures outbox.preKeyFetches == old(outbox.preKeyFetches)
      + (if RouteFor(state) == PrekeyBundleForNewSession then [canonicalNumber] else [])
    ensures r.Err? <==> RouteFor(state) == PrekeyBundleForNewSession && preKeyFailure.Some?
    ensures r.Err? ==> r.error == preKeyFailure.value
    ensures r.Ok? ==> r.value == (TagFor(RouteFor(state)), encrypt(RouteFor(state), plaintext))
    ensures outbox.requests == old(outbox.requests) && outbox.broadcasts == old(outbox.broadcasts)
  {
    if state.nonPrekeySession {
      return Ok((TYPE_MESSAGE_CIPHERTEXT, encrypt(ExistingSession, plaintext)));
    } else if state.session {
      return Ok((TYPE_MESSAGE_PREKEY_BUNDLE, encrypt(PrekeyBundleForExistingSession, plaintext)));
    } else {
      outbox.preKeyFetches := outbox.preKeyFetches + [canonicalNumber];
      if preKeyFailure.Some? {
        return Err(preKeyFailure.value);
      }
      return Ok((TYPE_MESSAGE_PREKEY_BUNDLE, encrypt(PrekeyBundleForNewSession, plaintext)));
    }
  }

  /**
   * `deliver(SmsMessageRecord)`: encrypt, send to the recipient's canonical
   * number with the route's tag, then broadcast that the message was sent.
   * `sendFailure` is what the server answers to the send.
   */
  method DeliverSms(outbox: Outbox, messageId: int, messageType: int, canonicalNumber: string, plaintext: string,
                    state: SessionState, encrypt: (Route, string) -> string,
                    preKeyFailure: Option<Exception>, sendFailure: Option<Exception>)
    returns (r: Result<()>)
    modifies outbox
    ensures var route := RouteFor(state);
      var preKeyFails := route == PrekeyBundleForNewSession && preKeyFailure.Some?;
      && (preKeyFails ==> r == Err(Reported(preKeyFailure.value)) && outbox.requests == old(outbox.requests))
      && (!preKeyFails ==>
            outbox.requests == old(outbox.requests) + [SendMessage([canonicalNumber], encrypt(route, plaintext), TagFor(route))])
      && (!preKeyFails && sendFailure.Some? ==> r == Err(Reported(sendFailure.value)))
      && (r.Ok? <==> !preKeyFails && sendFailure.None?)
      && outbox.broadcasts == old(outbox.broadcasts) + (if r.Ok? then [SentIntent(messageId, messageType)] else [])
  {
    var typeAndCiphertext := GetEncryptedMessage(outbox, state, canonicalNumber, plaintext, encrypt, preKeyFailure);
    if typeAndCiphertext.Err? {
      return Err(Reported(typeAndCiphertext.error));
    }
    var (tag, ciphertext) := typeAndCiphertext.value;
    outbox.requests := outbox.requests + [SendMessage([canonicalNumber], ciphertext, tag)];
    if sendFailure.Some? {
      return Err(Reported(sendFailure.value));
    }
    outbox.broadcasts := outbox.broadcasts + [SentIntent(messageId, messageType)];
    r := Ok(());
  }

  /**
   * `deliver(SendReq, destinations)`: send the text as plaintext, with the
   * attachments when the body has any.
   */
  method DeliverMms(outbox: Outbox, destinations: seq<string>, messageText: string, body: seq<Part>,
                    sendFailure: Option<Exception>)
    returns (r: Result<()>)
    modifies outbox
    ensures Attachments(body) == [] ==>
      outbox.requests == old(outbox.requests) + [SendMessage(destinations, messageText, TYPE_MESSAGE_PLAINTEXT)]
    ensures Attachments(body) != [] ==>
      outbox.requests == old(outbox.requests)
        + [SendMessageWithAttachments(destinations, messageText, Attachments(body), TYPE_MESSAGE_PLAINTEXT)]
    ensures sendFailure.Some? ==> r == Err(Reported(sendFailure.value))
    ensures sendFailure.None? ==> r == Ok(())
    ensures outbox.preKeyFetches == old(outbox.preKeyFetches) && outbox.broadcasts == old(outbox.broadcasts)
  {
    var attachments := GetAttachmentsFromBody(body);
    if attachments == [] {
      outbox.requests := outbox.requests + [SendMessage(destinations, messageText, TYPE_MESSAGE_PLAINTEXT)];
    } else {
      outbox.requests := outbox.requests
        + [SendMessageWithAttachments(destinations, messageText, attachments, TYPE_MESSAGE_PLAINTEXT)];
    }
    if sendFailure.Some? {
      return Err(Reported(sendFailure.value));
    }
    r := Ok(());
  }
}

=== FILE: Wrappers.dfy ===
/** Failure-carrying values shared by every module of the model. */
module Wrappers {

  /** A value that may be missing; `None` stands for a Java `null`. */
  datatype Option<+T> = None | Some(value: T)

  /** The exceptions that the modelled Java code raises or lets through. */
  datatype Exception =
    | IOException(message: string)
    | IllegalArgumentException
    | ArithmeticException
    | NumberFormatException
    | ClassCastException
    | ArrayIndexOutOfBoundsException
    | NullPointerException
    | RateLimitException
    | OtherException(name: string)

  /** Either a normal result or the exception that ended the call. */
  datatype Result<+R> = Ok(value: R) | Err(error: Exception)
}
